=== FILE: README.md ===
# Third-person character controller: frame logic, animation store, follow camera

A Dafny model of the sequential decision logic of a Rapier/three.js
third-person character controller:

- **The per-frame step** of `CharacterControl` (`Controller.Frame`). The
  state between frames is an immutable `Motion` record with two kinds of
  field:
  - Render-scoped fields are `let` variables of the component body: the
    grounded flag `canJump`, `isFalling`, `massRatio`, `isOnMovingObject`,
    the last ground and slope ray hits, and the measured and sampled slope
    angles. Every render re-declares them, and the frame callback of the new
    render starts from their initial values (`Controller.Rerender`). A
    render follows every space-bar press and release and every health
    change.
  - Persistent fields are memoised vectors plus the body's gravity scale:
    the contact-force accumulator, the platform velocity, the target facing
    `modelEuler.y`, the slope normal, the last movement impulse and the last
    spring reaction. They keep their values across renders.

  Each frame samples its inputs: keys, health, overlay flag, velocity,
  ground and slope ray hits, and platform bodies. It returns the next
  record plus its `Effects`: the impulses and velocity it hands to the
  physics engine, and the animation calls it makes on the store. It
  models the 8-way facing table, the grounded test, moving-platform
  coupling, the float spring and its reaction, the idle drag, the
  falling/gravity switch, the jump gate and jump velocity, and the
  animation-call selection.
- **The game store** (`GameStore`). It holds the current animation and the
  table of animation names, with guarded transitions `idle`, `walk`,
  `run`, `jump`, `jumpIdle`, `jumpLand`, `fall` and `reset`, plus the
  setters. JavaScript's `null`, `undefined` and strings are kept apart,
  because the guards compare them with `===`.
- **The follow camera's discrete rules** (`FollowCam`, `CollisionTargets`).
  These are the zoom and pitch range guards, the reset of the zoom distance
  on a render (it is a `let` of the hook), the choice of camera distance
  after the collision ray, and `customTraverse`, the pruning pre-order
  collection of collision meshes over the scene tree.
- **End-to-end lemmas** (`EndToEnd`, `FrameProperties`). These apply a
  frame's animation calls to the store, or run several frames.

A facing is `pivotYaw + eighths * pi/4` (`Direction.Heading`), so the
facing table needs no trigonometry. All arithmetic is exact `real`
arithmetic.

Behaviours of the code that are easy to misread:

- Opposing direction keys do not cancel. Forward+backward faces the pivot
  yaw, as backward alone does. Leftward+rightward faces a quarter turn left,
  as leftward alone does.
- An in-range ground hit sets `canJump` only when the slope sample is
  walkable; otherwise it keeps the previous value. That slope sample is the
  previous frame's, because the slope ray is cast later in the frame. A
  slope angle never measured is `null`, and `null < 1` holds in JavaScript,
  so it counts as walkable.
- The jump adds the slope projection; it never subtracts. The vertical speed
  ends between the base speed and 1.25 times the base.
- The jump's push on the platform is the previous frame's spring reaction
  times 5. It goes to the parent body of the previous frame's ground hit,
  because the ground ray is cast after the jump. Whenever the previous
  frame was grounded, that hit exists (`Controller.Ready`).
- The spring's damping uses the velocity after a jump. Falling, gravity and
  drag use the velocity read before it.
- A platform of mass 0 is not guarded against. The ratio is infinite
  (`MassRatio.Infinite`), and the transfer factor `min(1, 1/ratio)` is 0.
- The controller reads a constant `overlayVisible = false`, not the store's
  flag. The model takes the flag as a frame input, so both cases are
  covered.
- The body starts with the engine's default gravity scale 1. The configured
  scale is not passed to the rigid body; it is only the target scale
  `gravityScale || 1`.
- A render clears the previous slope ray hit, and `canJump` is set only
  when that hit exists. So the first frame after any render is ungrounded:
  it cannot jump and, for a live character, calls `jumpIdle()`
  (`FrameProperties.FirstFrameAfterRender`).
- With the shipped animation table, "JumpLand" is also the action-3 name,
  so `idle()` treats a landed character as playing an action. A character
  standing still after a jump or fall stays on "JumpLand" and never returns
  to "Idle" (`EndToEnd.ShippedTableStaysOnLanding`). With any table whose
  idle and jump-idle names differ, standing still settles after two frames
  (`EndToEnd.StandingStillSettles`).

`Controller.Frame` requires only `Controller.Ready`: a grounded state has a
previous ground hit. Every frame keeps it (`Controller.FrameKeepsReady`),
and so does a render. The stronger `Controller.Consistent` holds initially
(`Controller.InitialConsistent`) and every frame preserves it
(`Controller.FramePreservesConsistent`). A render during a platform ride
can break its last conjunct, though: the platform flag is cleared while the
memoised platform velocity keeps its value
(`Controller.RerenderCanStrandPlatformVelocity`). So the frame and
end-to-end lemmas assume only `Ready`.

## Model

| member | source | states |
|---|---|---|
| Direction.MovingDirection | src/CharacterControl.jsx:17-27 | no result exactly when no direction key is held; otherwise the offset from the literal 16-entry table, always within -2..5 eighths of a turn |
| Direction.UpdateHeading | src/CharacterControl.jsx:575-578 | the target facing is unchanged without a direction key, and otherwise becomes the pivot yaw plus the table's offset |
| Direction.OpposingKeysDoNotCancel | src/CharacterControl.jsx:18-26 | forward+backward gives the pivot yaw itself, leftward+rightward gives a quarter turn left |
| Vectors.ProjectOnVector | src/CharacterControl.jsx:596-603 | projection onto a zero vector is zero; the result is parallel to the axis (zero cross product) and the remainder is orthogonal to it |
| Vectors.VerticalProjectionBounds | src/CharacterControl.jsx:596-603 | projecting an upward vector (0, c, 0) onto any normal gives a vertical part in [0, c] |
| Vectors.VerticalOntoVertical | src/CharacterControl.jsx:596-603 | on a vertical normal the projection of an upward vector is the vector itself |
| Controller.InitialGravityScale | src/CharacterControl.jsx:147 | the initial scale is the configured scale when that is non-zero and exactly 1 when it is 0 (the or-fallback of line 147), so never 0 |
| Controller.RatioOf | src/CharacterControl.jsx:684-685 | mass ratio is infinite exactly for a massless platform, else ratio times platform mass is the character mass |
| Controller.TransferFactor | src/CharacterControl.jsx:712 | min(1, 1/massRatio) lies in [0, 1], is 0 for a massless platform, is 1/ratio when the character is heavier and 1 when it is lighter |
| Controller.InitialConsistent | src/CharacterControl.jsx:144-146 | the initial frame state satisfies the reachable-state invariant |
| Controller.Rerender | src/CharacterControl.jsx:145-261 | a render puts every `let` field (grounded, falling, mass ratio, platform flag, ray hits, slope angles) back to its initial value and keeps every memoised field and the gravity scale; the result can run a frame |
| Controller.RerenderIdempotent | src/CharacterControl.jsx:185-186 | two renders are one render, and a render of the initial state changes nothing |
| Controller.RerenderCanStrandPlatformVelocity | src/CharacterControl.jsx:185-196 | a render during a platform ride clears the platform flag but keeps the memoised platform velocity, breaking the invariant's last conjunct |
| Controller.Grounded | src/CharacterControl.jsx:664-670 | grounded only with an in-range ground hit; with one, grounded when the previous slope sample is walkable, else unchanged |
| Controller.JumpVelocity | src/CharacterControl.jsx:589-605 | the added lift is parallel to the last slope normal and leaves a remainder of (0, 0.25 base, 0) orthogonal to it, i.e. it is that vector's projection on the normal; jump vertical speed is between the base (4, or 4.8 running) and 1.25 times the base; exactly the base with no measured normal; horizontal velocity kept on level ground |
| Controller.ContactVelocity | src/CharacterControl.jsx:689-711 | the platform's surface velocity keeps its vertical linear velocity and equals the linear velocity when it does not spin or the character is at its centre; under a spin about the vertical axis the added horizontal velocity is perpendicular to the horizontal offset, with squared length angvel.y² times the offset's squared horizontal length, and turns the character in the spin's sense (right-hand rule: `a.z * h.x - a.x * h.z == angvel.y * (a.x² + a.z²)`) |
| Controller.Couple | src/CharacterControl.jsx:675-756 | detached (ratio 1, not moving, accumulator and platform velocity zero) when not grounded or on a body of any type other than 0 (dynamic) or 2 (kinematic); unchanged on a parentless collider; on a type 0 or 2 body rides it at the scaled surface velocity; dynamic bodies get the negated scaled contact force (then cleared) or movement impulse |
| Controller.FloatForce | src/CharacterControl.jsx:812-814 | the spring force is zero at rest; with a positive spring constant and non-negative damping it is strictly positive when compressed and not rising, and strictly negative when extended and not falling |
| Controller.FloatReaction | src/CharacterControl.jsx:821 | the reaction on the standing body is vertical, never positive, and equals minus the spring force when that is positive |
| Controller.IdleDrag | src/CharacterControl.jsx:831-850 | the drag has no vertical part and is 15% of the horizontal velocity relative to the ground, or to the riding platform, pointing against it |
| Controller.GravityStep | src/CharacterControl.jsx:860-877 | a non-zero scale below terminal speed becomes 0, a scale of 0 is never kept, otherwise falling gives 2.5 and not falling the initial scale |
| Controller.SelectTriggers | src/CharacterControl.jsx:892-916 | no call for a dead character or under the overlay; otherwise idle exactly when standing still and grounded, jump exactly when jump is pressed while grounded and not held, walk/run exactly when moving grounded without jump, jump-idle exactly when not grounded; every call after the first is fall, which comes exactly when the ground ray missed while falling |
| Controller.Frame | src/CharacterControl.jsx:563-917 | one frame of the controller; its contract is stated by `Controller.FrameKeepsReady`, `Controller.FramePreservesConsistent` and the `FrameProperties` lemmas |
| Controller.FrameKeepsReady | src/CharacterControl.jsx:587-670 | after any frame, a grounded state has a ground hit for the next jump to push |
| Controller.FramePreservesConsistent | src/CharacterControl.jsx:563-917 | one frame preserves the invariant: grounded implies an in-range ground hit, falling implies not grounded, a slope angle implies grounded, not riding a platform implies ratio 1 and zero platform velocity |
| Controller.OnContactForce | src/CharacterControl.jsx:926-934 | the contact callback overwrites the accumulator only for a live character without overlay, and changes nothing else |
| Controller.OnCollisionExit | src/CharacterControl.jsx:935 | the exit callback clears the accumulator and changes nothing else |
| FrameProperties.FrameFacingAndMovement | src/CharacterControl.jsx:575-581 | facing is kept without a direction key; `moveCharacter` runs exactly when a direction key is held by a live character |
| FrameProperties.FrameGrounded | src/CharacterControl.jsx:664-670 | a frame's grounded flag is false without an in-range hit, true with one after a walkable slope sample, otherwise carried over |
| FrameProperties.SlopeSampleActsNextFrame | src/CharacterControl.jsx:761-805 | this frame's slope ray cannot change this frame's grounded flag, falling flag, gravity scale or animation calls |
| FrameProperties.FramePlatformCoupling | src/CharacterControl.jsx:675-756 | an ungrounded frame detaches from any platform; grounded on a parentless collider keeps the previous coupling |
| FrameProperties.FrameFloat | src/CharacterControl.jsx:810-826 | the spring acts exactly when grounded on a collider with a parent body, and its reaction never pulls the body up |
| FrameProperties.FrameFallingAndDrag | src/CharacterControl.jsx:831-855 | falling exactly when moving down and not grounded; idle drag exactly when grounded with no direction key |
| FrameProperties.FrameJump | src/CharacterControl.jsx:587-611 | a jump happens exactly when jump key, previous grounded flag, life and no overlay hold; speed within [base, 1.25 base]; the platform push is 5 times the last reaction |
| FrameProperties.FallFollowsJumpIdle | src/CharacterControl.jsx:892-916 | whenever a frame calls fall, its calls are exactly jump-idle then fall |
| FrameProperties.FirstFrameAfterRender | src/CharacterControl.jsx:664-670 | the first frame after a render is not grounded, does not jump, and for a live character without overlay calls jump-idle |
| FrameProperties.Trace | src/CharacterControl.jsx:563-917 | every state along a run of frames can run a frame, and satisfies the reachable-state invariant when the first one does |
| FrameProperties.GravityNeverZeroTwiceInARow | src/CharacterControl.jsx:860-877 | along any run of frames the gravity scale is never 0 in two consecutive states |
| FrameProperties.FrameGravity | src/CharacterControl.jsx:860-877 | a frame switches a non-zero scale off below terminal speed and never keeps a scale of 0 |
| GameStore.SetOverlayVisible | src/stores/useGame.jsx:10-12 | sets the overlay flag and nothing else |
| GameStore.SetCurHealth | src/stores/useGame.jsx:15-19 | sets the health and nothing else |
| GameStore.SetCurAnimation | src/stores/useGame.jsx:23-25 | sets the current animation and nothing else |
| GameStore.InitializeAnimationSet | src/stores/useGame.jsx:28-35 | always replaces the table with the argument, empty before or not, and nothing else |
| GameStore.Reset | src/stores/useGame.jsx:37-41 | sets the current animation to the table's idle name |
| GameStore.Idle | src/stores/useGame.jsx:43-57 | from jump-idle to landing (even if that name is an action name); from other non-action animations to idle; an action animation is kept |
| GameStore.Walk | src/stores/useGame.jsx:59-66 | to walk unless action 4 is playing, in which case nothing changes |
| GameStore.Run | src/stores/useGame.jsx:68-75 | to run unless action 4 is playing, in which case nothing changes |
| GameStore.Jump | src/stores/useGame.jsx:77-81 | unconditionally to the jump animation |
| GameStore.JumpIdle | src/stores/useGame.jsx:83-90 | changes the store only from the jump animation, and then to jump-idle |
| GameStore.JumpLand | src/stores/useGame.jsx:92-99 | changes the store only from jump-idle, and then to landing |
| GameStore.Fall | src/stores/useGame.jsx:101-105 | unconditionally to the fall animation |
| GameStore.JumpArcLands | src/stores/useGame.jsx:77-99 | jump, jump-idle, land always ends on the landing name, whatever the table |
| GameStore.ActionFourHoldsAgainstMovement | src/stores/useGame.jsx:59-75 | while action 4 plays, walk and run change nothing |
| GameStore.IdleSettles | src/stores/useGame.jsx:43-57 | with distinct idle and jump-idle names, a third `idle()` changes nothing |
| GameStore.Lookup | src/stores/useGame.jsx:43-57 | a table entry is read as its name; an absent key is `undefined`, never `null` |
| GameStore.IdleOscillatesWhenNamesCollide | src/stores/useGame.jsx:43-57 | if idle and jump-idle share a name, the store starts on that name, and the landing name differs from it and from all four action names, then `idle()` moves to the landing name and a second `idle()` returns: a two-cycle |
| GameStore.ShippedLandingNeverIdles | src/components/CharacterModel.jsx:35-49 | with the shipped table, any number of `idle()` calls from "JumpIdle" give "JumpLand" |
| FollowCam.Wheel | src/hooks/useFollowCam.jsx:56-66 | the zoom takes the candidate distance exactly when it lies in [maxDis, minDis], else nothing changes, so the range is invariant; yaw and pitch are untouched |
| FollowCam.MouseMove | src/hooks/useFollowCam.jsx:39-53 | nothing without pointer lock or a pressed button; else yaw turns by the movement, and the pitch takes the candidate value exactly when it lies in [-0.5, 1.5]; zoom untouched |
| FollowCam.Rerender | src/hooks/useFollowCam.jsx:9 | a render puts the zoom distance back to the initial distance and keeps yaw and pitch |
| FollowCam.RangesInvariant | src/hooks/useFollowCam.jsx:39-66 | pitch stays in range through any sequence of wheel, mouse and render events; zoom too when it starts in range and the initial distance is in range or no render occurs |
| FollowCam.DefaultZoomFixed | src/CharacterControl.jsx:38-40 | with the default distances (all -2) the zoom distance stays -2 through any events |
| FollowCam.SmallestDistance | src/hooks/useFollowCam.jsx:103-110 | a nearest hit within the zoom distance gives min(-d * offset, -0.7), at most -0.7; otherwise the zoom distance |
| FollowCam.CollisionPullsInward | src/hooks/useFollowCam.jsx:103-110 | with an offset in [0, 1], a non-negative hit distance and a zoom distance of -0.7 or farther, the collision distance lies between the zoom distance and -0.7: it only pulls the camera in |
| FollowCam.CollisionPushesOutWhenZoomedClose | src/hooks/useFollowCam.jsx:103-110 | with an offset in [0, 1] and a zoom distance nearer than -0.7, a hit within the zoom distance moves the camera out to -0.7, farther than the zoom distance |
| CollisionTargets.Traverse | src/hooks/useFollowCam.jsx:72-87 | nothing from an excluded object; only non-text meshes are collected; the result is a subsequence of the pre-order listing |
| CollisionTargets.TraverseAll | src/hooks/useFollowCam.jsx:84-86 | children are traversed left to right: a subsequence of their concatenated pre-order listings, meshes only |
| CollisionTargets.SceneTargets | src/hooks/useFollowCam.jsx:124 | the scene's targets are a subsequence of the pre-order listing of its top-level children, no longer than the object count |
| CollisionTargets.TraverseMembership | src/hooks/useFollowCam.jsx:72-87 | an object is collected exactly when it is a non-text mesh reachable without passing an excluded object |
| CollisionTargets.TraverseAllMembership | src/hooks/useFollowCam.jsx:84-86 | an object is collected from a child list exactly when some child reaches it and it is a non-text mesh |
| CollisionTargets.ExcludedChildContributesNothing | src/hooks/useFollowCam.jsx:74-76 | removing an excluded child, with its whole subtree, does not change the targets |
| EndToEnd.ApplyTrigger | src/stores/useGame.jsx:43-105 | each call changes only the current animation: jump and fall always reach their names, walk, run and jump-idle reach theirs or change nothing |
| EndToEnd.ApplyTriggers | src/CharacterControl.jsx:892-916 | a frame's animation calls change only the current animation; a call list ending in fall ends on the fall name |
| EndToEnd.Play | src/CharacterControl.jsx:563-917 | a run of frames applied to the store changes only its current animation, ends in a state that can run a frame, and keeps the invariant when started in it |
| EndToEnd.SuspendedFrameKeepsAnimation | src/CharacterControl.jsx:892 | a frame of a dead character or under the overlay leaves the store unchanged |
| EndToEnd.MissedGroundWhileDescendingShowsFall | src/CharacterControl.jsx:910-916 | a live frame whose ground ray misses while descending calls jump-idle then fall and shows the fall animation |
| EndToEnd.JumpFrameShowsJump | src/CharacterControl.jsx:902-903 | a live grounded jump frame without the space bar held calls only jump, shows it, and leaves at no less than 4 |
| EndToEnd.StandingStillCallsIdle | src/CharacterControl.jsx:893-901 | frames standing still on walkable ground stay grounded and call `idle()` exactly once each |
| EndToEnd.ShippedTableStaysOnLanding | src/stores/useGame.jsx:43-56 | with the shipped table, standing still after a jump or fall shows "JumpLand" on every frame, never "Idle" |
| EndToEnd.StandingStillSettles | src/stores/useGame.jsx:43-56 | with distinct idle and jump-idle names, after two still frames further still frames leave the store unchanged |

## Left out

- Physics engine calls: the ray casts, impulse and torque application, and rigid-body getters and setters. Their results are frame inputs and their effects are `Effects` values. The point at which the jump push, the platform drag and the spring reaction are applied to the platform (`standingForcePoint`) is not modelled: the `Effects` carry the impulses only, because where an impulse acts matters only to the engine's torque computation.
- `moveCharacter`'s impulse: movement direction, required acceleration, the slope tilt and the `toFixed(3)` turning test are trigonometric. Its result is the `moveImpulse` input. The model records whether it ran and keeps its last impulse, because the platform drag reuses it.
- Auto-balance torque, `rotateTowards` of the facing indicator, the exponential pivot lerp and all camera position updates (sines, cosines, lerps): trigonometry and geometry.
- The signed slope angle: its formula divides by an object and is NaN in JavaScript. It is an opaque input (`slopeAngleSample`), and the model records only when it is set or cleared. The slope normal's angle to the up axis is also an input.
- Controller.Couple: the velocity-difference guard that attenuates the platform velocity when it differs from the character's by more than 30 is not modelled, because it needs a vector length (a square root). The modelled platform velocity is the value before that guard.
- Controller.ContactVelocity: only spins about the vertical axis are characterised (direction, sense and magnitude of the added velocity). For a tilted spin the contract states only that the vertical velocity is the platform's, and the centre and no-spin cases; the body still computes the x/z parts of angvel × offset for every spin.
- Controller.JumpVelocity: three.js `projectOnVector` is modelled as dot product over squared length (zero for a zero vector), as three.js documents it; its code is not part of this model.
- The camera hook's `isMouseDown` is also re-declared by a render, so it reads false until the next button press. The model takes the flag with each mouse-move event. The space-bar handler is registered once and reads the first render's `holdingSpaceBar` and health; it is not modelled.
- Event wiring and React lifecycle: key, mouse and visibility listeners, `subscribeKeys`, sleep and delayed wake-up, and the space-bar handler. The space-bar handler's `jump()` call is not modelled. The `holdingSpaceBar` value it maintains is a frame input.
- The action 1..4 animation calls: the store defines no such transitions, so none are invented. Action names appear only through the guards of `idle`, `walk` and `run`.
- Asynchronous delivery of contact-force events: the callbacks are modelled as pure updates (`Controller.OnContactForce`, `Controller.OnCollisionExit`) that a caller interleaves between frames.
- Model loading, the animation mixer, scene set-up and bootstrapping (`CharacterModel.jsx`, `Experience.jsx`, `Floor.jsx`, `index.jsx`). Only the shipped animation-name table is used, as `GameStore.ShippedSet`.
- Floating-point rounding: all arithmetic is exact `real` arithmetic. Zero masses are handled as JavaScript does (an infinite ratio). Character masses are positive and platform masses non-negative.

=== FILE: collision_targets.dfy ===
/** The camera-collision target list: `customTraverse` over the scene graph,
    which collects meshes in pre-order and prunes every subtree whose root is
    flagged `camExcludeCollision`. */
module CollisionTargets {

  /** A scene-graph object. `camExclude` is `userData.camExcludeCollision === true`;
      `geometryType` is read only for meshes. */
  datatype Object3D = Object3D(name: string, camExclude: bool, isMesh: bool, geometryType: string,
                               children: seq<Object3D>)

  /** Meshes other than text ("InstancedBufferGeometry") block the camera. */
  predicate IsCollisionMesh(o: Object3D) {
    o.isMesh && o.geometryType != "InstancedBufferGeometry"
  }

  /** Every object of the tree, each before its descendants, children left to
      right. */
  function PreOrder(o: Object3D): (r: seq<Object3D>)
    ensures |r| >= 1 && r[0] == o
    decreases o, 1
  {
    [o] + PreOrderAll(o.children)
  }

  function PreOrderAll(cs: seq<Object3D>): seq<Object3D>
    decreases cs, 0
  {
    if cs == [] then [] else PreOrder(cs[0]) + PreOrderAll(cs[1..])
  }

  /** `a` can be obtained from `b` by deleting elements. */
  predicate IsSubsequence<T(==)>(a: seq<T>, b: seq<T>)
    decreases |b|
  {
    if a == [] then true
    else if b == [] then false
    else if a[0] == b[0] then IsSubsequence(a[1..], b[1..])
    else IsSubsequence(a, b[1..])
  }

  lemma {:induction false} SubsequenceNotLonger<T>(a: seq<T>, b: seq<T>)
    requires IsSubsequence(a, b)
    ensures |a| <= |b|
    decreases |b|
  {
    if a != [] {
      if a[0] == b[0] {
        SubsequenceNotLonger(a[1..], b[1..]);
      } else {
        SubsequenceNotLonger(a, b[1..]);
      }
    }
  }

  lemma {:induction false} SubsequenceCons<T>(a: seq<T>, b: seq<T>)
    requires b != [] && IsSubsequence(a, b[1..])
    ensures IsSubsequence(a, b)
    decreases |b|, |a|
  {
    if a != [] && a[0] == b[0] {
      SubsequenceDropFirst(a, b[1..]);
    }
  }

  lemma {:induction false} SubsequenceDropFirst<T>(a: seq<T>, b: seq<T>)
    requires a != [] && IsSubsequence(a, b)
    ensures IsSubsequence(a[1..], b)
    decreases |b|, |a|
  {
    if a[0] != b[0] {
      SubsequenceDropFirst(a, b[1..]);
    }
    SubsequenceCons(a[1..], b);
  }

  lemma {:induction false} SubsequenceOfLonger<T>(a: seq<T>, pre: seq<T>, b: seq<T>)
    requires IsSubsequence(a, b)
    ensures IsSubsequence(a, pre + b)
    decreases |pre|
  {
    if pre == [] {
      assert pre + b == b;
    } else {
      SubsequenceOfLonger(a, pre[1..], b);
      assert (pre + b)[1..] == pre[1..] + b;
      SubsequenceCons(a, pre + b);
    }
  }

  lemma {:induction false} SubsequenceConcat<T>(a1: seq<T>, b1: seq<T>, a2: seq<T>, b2: seq<T>)
    requires IsSubsequence(a1, b1) && IsSubsequence(a2, b2)
    ensures IsSubsequence(a1 + a2, b1 + b2)
    decreases |b1|
  {
    if a1 == [] {
      SubsequenceOfLonger(a2, b1, b2);
      assert a1 + a2 == a2;
    } else {
      assert (a1 + a2)[0] == a1[0] && (b1 + b2)[0] == b1[0];
      assert (b1 + b2)[1..] == b1[1..] + b2;
      if a1[0] == b1[0] {
        SubsequenceConcat(a1[1..], b1[1..], a2, b2);
        assert (a1 + a2)[1..] == a1[1..] + a2;
      } else {
        SubsequenceConcat(a1, b1[1..], a2, b2);
      }
    }
  }

  /** `customTraverse(o)`: nothing from an excluded object or anything below
      it; otherwise the object itself if it is a collision mesh, then what its
      children yield, left to right. Non-mesh objects are still descended
      into. */
  function Traverse(o: Object3D): (r: seq<Object3D>)
    ensures o.camExclude ==> r == []
    ensures forall x :: x in r ==> IsCollisionMesh(x)
    ensures IsSubsequence(r, PreOrder(o))
    decreases o, 1
  {
    if o.camExclude then []
    else
      var own := if IsCollisionMesh(o) then [o] else [];
      var rest := TraverseAll(o.children);
      SubsequenceConcat(own, [o], rest, PreOrderAll(o.children));
      own + rest
  }

  function TraverseAll(cs: seq<Object3D>): (r: seq<Object3D>)
    ensures forall x :: x in r ==> IsCollisionMesh(x)
    ensures IsSubsequence(r, PreOrderAll(cs))
    decreases cs, 0
  {
    if cs == [] then []
    else
      var r := Traverse(cs[0]) + TraverseAll(cs[1..]);
      SubsequenceConcat(Traverse(cs[0]), PreOrder(cs[0]), TraverseAll(cs[1..]), PreOrderAll(cs[1..]));
      r
  }

  /** The collision targets of a scene: the traversal of each top-level child
      in order. No target is listed more often than the scene has objects. */
  function SceneTargets(sceneChildren: seq<Object3D>): (r: seq<Object3D>)
    ensures IsSubsequence(r, PreOrderAll(sceneChildren))
    ensures |r| <= |PreOrderAll(sceneChildren)|
    ensures forall x :: x in r ==> IsCollisionMesh(x)
  {
    var r := TraverseAll(sceneChildren);
    SubsequenceNotLonger(r, PreOrderAll(sceneChildren));
    r
  }

  /** `x` lies in the tree of `o` along a path none of whose objects,
      `o` and `x` included, is excluded. */
  ghost predicate Reaches(o: Object3D, x: Object3D)
    decreases o
  {
    !o.camExclude && (x == o || exists i :: 0 <= i < |o.children| && Reaches(o.children[i], x))
  }

  /** An independent description of what the traversal collects: exactly the
      collision meshes reachable without passing an excluded object. */
  lemma {:induction false} TraverseMembership(o: Object3D, x: Object3D)
    ensures x in Traverse(o) <==> Reaches(o, x) && IsCollisionMesh(x)
    decreases o, 1
  {
    if !o.camExclude {
      TraverseAllMembership(o.children, x);
    }
  }

  lemma {:induction false} TraverseAllMembership(cs: seq<Object3D>, x: Object3D)
    ensures x in TraverseAll(cs) <==> (exists i :: 0 <= i < |cs| && Reaches(cs[i], x)) && IsCollisionMesh(x)
    decreases cs, 0
  {
    if cs != [] {
      TraverseMembership(cs[0], x);
      TraverseAllMembership(cs[1..], x);
      if exists i :: 0 <= i < |cs| && Reaches(cs[i], x) {
        var i :| 0 <= i < |cs| && Reaches(cs[i], x);
        if i > 0 {
          assert cs[1..][i - 1] == cs[i];
        }
      }
      if exists j :: 0 <= j < |cs[1..]| && Reaches(cs[1..][j], x) {
        var j :| 0 <= j < |cs[1..]| && Reaches(cs[1..][j], x);
        assert cs[j + 1] == cs[1..][j];
      }
    }
  }

  /** An excluded child contributes nothing, itself or below: the targets
      are those of the same children with that child removed. */
  lemma {:induction false} ExcludedChildContributesNothing(cs: seq<Object3D>, i: nat)
    requires i < |cs| && cs[i].camExclude
    ensures TraverseAll(cs) == TraverseAll(cs[..i] + cs[i + 1..])
    decreases i
  {
    if i == 0 {
      assert cs[..0] + cs[1..] == cs[1..];
    } else {
      var tail := cs[1..];
      ExcludedChildContributesNothing(tail, i - 1);
      var without := cs[..i] + cs[i + 1..];
      assert without[0] == cs[0];
      assert without[1..] == tail[..i - 1] + tail[i..];
    }
  }
}

=== FILE: controller.dfy ===
/** One frame of the character controller, as a pure step from the state the
    frame closure keeps between frames to the next state plus the effects the
    frame has on the physics world and on the animation store.

    Everything the physics engine computes (ray hits, body velocities and
    masses, the slope normal's angle, the impulse `moveCharacter` builds) is
    an input; everything the frame hands to the engine (impulses, a new
    velocity, a gravity scale) is an output. */
module Controller {
  import opened Wrappers
  import opened Vectors
  import opened Direction

  // Tuning constants of the controller.
  const RayHitForgiveness: real := 0.1
  const SlopeMaxAngle: real := 1.0
  const SlopeRayMargin: real := 0.5
  const JumpVel: real := 4.0
  const SprintJumpMult: real := 1.2
  const SlopeJumpMult: real := 0.25
  const JumpForceToGroundMult: real := 5.0
  const DragDampingC: real := 0.15
  const FallingGravityScale: real := 2.5
  const FallingMaxVel: real := -20.0

  type PosReal = r: real | r > 0.0 witness 1.0
  type NonNegReal = r: real | r >= 0.0 witness 0.0

  /** The options the controller is created with that this model uses. */
  datatype Config = Config(capsuleRadius: real, floatHeight: real, springK: real, dampingC: real, gravityScale: real)

  const DefaultConfig: Config := Config(0.3, 0.3, 1.2, 0.08, 1.0)

  /** The rest distance the float spring holds the ray origin above ground. */
  function FloatingDis(c: Config): real {
    c.capsuleRadius + c.floatHeight
  }

  /** `gravityScale || 1`: a configured scale of 0 is falsy and becomes 1. */
  function InitialGravityScale(c: Config): (r: real)
    ensures r != 0.0
    ensures c.gravityScale != 0.0 ==> r == c.gravityScale
    ensures c.gravityScale == 0.0 ==> r == 1.0
  {
    if c.gravityScale == 0.0 then 1.0 else c.gravityScale
  }

  /** The parent rigid body of the collider the ground ray hit. Body type 0 is
      dynamic and 2 kinematic (position based); 1 (fixed), 3 and any other
      value count as not moving. */
  datatype Platform = Platform(bodyType: int, mass: NonNegReal, translation: Vec3, linvel: Vec3, angvel: Vec3)

  /** The ground ray's hit: distance and the collider's parent body, if any. */
  datatype GroundHit = GroundHit(toi: real, parent: Option<Platform>)

  /** The slope ray's surface normal and its angle to the world up axis. */
  datatype SlopeNormal = SlopeNormal(normal: Vec3, angle: real)

  /** The slope ray's hit; `normal` is absent when the second cast that asks
      for the normal misses. */
  datatype SlopeHit = SlopeHit(toi: real, normal: Option<SlopeNormal>)

  /** Character mass over platform mass. A platform of mass 0 gives an
      infinite ratio (JavaScript division by zero). */
  datatype MassRatio = Finite(ratio: PosReal) | Infinite

  function RatioOf(characterMass: PosReal, platformMass: NonNegReal): (r: MassRatio)
    ensures platformMass == 0.0 <==> r.Infinite?
    ensures r.Finite? ==> r.ratio * platformMass == characterMass
  {
    if platformMass == 0.0 then Infinite else Finite(characterMass / platformMass)
  }

  /** `Math.min(1, 1 / massRatio)`: the share of the platform's velocity and
      force passed on. It never exceeds 1, equals 1/ratio for a character at
      least as heavy as the platform, and is 0 for a massless platform. */
  function TransferFactor(m: MassRatio): (f: real)
    ensures 0.0 <= f <= 1.0
    ensures m.Infinite? ==> f == 0.0
    ensures m.Finite? ==> f > 0.0
    ensures m.Finite? && m.ratio >= 1.0 ==> f * m.ratio == 1.0
    ensures m.Finite? && m.ratio <= 1.0 ==> f == 1.0
  {
    match m
    case Infinite => 0.0
    case Finite(q) => Min(1.0, 1.0 / q)
  }

  /** The state the frame closure keeps from one frame to the next. */
  datatype Motion = Motion(
    canJump: bool,
    isFalling: bool,
    massRatio: MassRatio,
    isOnMovingObject: bool,
    contactForce: Vec3,          // accumulator written by the contact-force callback
    platformVelocity: Vec3,      // velocity of the standing platform at the character
    gravityScale: real,          // the body's current gravity scale
    heading: Heading,            // target facing `modelEuler.y`
    lastGround: Option<GroundHit>,
    lastSlope: Option<SlopeHit>,
    actualSlopeAngle: Option<real>,
    slopeNormal: Vec3,
    slopeAngle: Option<real>,
    moveImpulse: Vec3,           // impulse of the last `moveCharacter` call
    massForce: Vec3              // last reaction pushed onto the standing body
  )

  /** The state before the first frame. The body starts with the engine's
      default gravity scale 1: the configured scale is not passed to it. */
  function InitialMotion(characterInitDir: real): Motion {
    Motion(false, false, Finite(1.0), false, Zero, Zero, 1.0, Heading(characterInitDir, 0),
           None, None, None, Zero, None, Zero, Zero)
  }

  /** What a frame needs of its state: when grounded, the previous ground
      hit exists, so the jump can push the body it belongs to. */
  predicate Ready(s: Motion) {
    s.canJump ==> s.lastGround.Some?
  }

  /** Facts every state reached by frames from the initial state satisfies.
      The first implies `Ready`. A re-render can break the last one
      (`RerenderCanStrandPlatformVelocity`). */
  predicate Consistent(c: Config, s: Motion) {
    && (s.canJump ==> GroundInRange(c, s.lastGround))
    && (s.isFalling ==> !s.canJump)
    && (s.slopeAngle.Some? ==> s.canJump)
    && (!s.isOnMovingObject ==> s.massRatio == Finite(1.0) && s.platformVelocity == Zero)
  }

  lemma InitialConsistent(c: Config, dir: real)
    ensures Consistent(c, InitialMotion(dir))
  {
  }

  /** The variables a render of the component re-declares (`let`), grouped:
      grounded and falling flags, mass ratio, platform flag, the ground and
      slope ray hits, the measured and the sampled slope angle. */
  function RenderScoped(s: Motion): (bool, bool, MassRatio, bool, Option<GroundHit>, Option<SlopeHit>, Option<real>, Option<real>) {
    (s.canJump, s.isFalling, s.massRatio, s.isOnMovingObject, s.lastGround, s.lastSlope, s.actualSlopeAngle, s.slopeAngle)
  }

  /** The state kept across renders: memoised vectors (contact-force
      accumulator, platform velocity, facing, slope normal, movement impulse,
      spring reaction) and the rigid body's gravity scale. */
  function Persistent(s: Motion): (Vec3, Vec3, real, Heading, Vec3, Vec3, Vec3) {
    (s.contactForce, s.platformVelocity, s.gravityScale, s.heading, s.slopeNormal, s.moveImpulse, s.massForce)
  }

  /** A re-render of the component (on a health change or a space-bar press
      or release): the frame callback of the new render starts its `let`
      variables from their initial values, while the memoised state and the
      body keep theirs. */
  function Rerender(s: Motion): (r: Motion)
    ensures forall d: real :: RenderScoped(r) == RenderScoped(InitialMotion(d))
    ensures Persistent(r) == Persistent(s)
    ensures Ready(r)
  {
    s.(canJump := false, isFalling := false, massRatio := Finite(1.0), isOnMovingObject := false,
       lastGround := None, lastSlope := None, actualSlopeAngle := None, slopeAngle := None)
  }

  /** The two projections together determine a state. */
  lemma ScopedAndPersistentDetermine(a: Motion, b: Motion)
    requires RenderScoped(a) == RenderScoped(b) && Persistent(a) == Persistent(b)
    ensures a == b
  {
  }

  /** Rendering twice is rendering once, and rendering the initial state
      changes nothing. */
  lemma RerenderIdempotent(s: Motion, dir: real)
    ensures Rerender(Rerender(s)) == Rerender(s)
    ensures Rerender(InitialMotion(dir)) == InitialMotion(dir)
  {
  }

  /** A re-render while riding a moving platform leaves the platform
      velocity in place with the platform flag cleared: the last conjunct of
      `Consistent` fails. */
  lemma RerenderCanStrandPlatformVelocity(c: Config)
    ensures var s := InitialMotion(0.0).(canJump := true, isOnMovingObject := true,
                                          platformVelocity := Vec3(1.0, 0.0, 0.0),
                                          lastGround := Some(GroundHit(FloatingDis(c), None)));
            Consistent(c, s) && !Consistent(c, Rerender(s))
  {
  }

  /** What a frame samples from outside: keys, camera pivot yaw, store values,
      the physics engine's answers, and the impulse `moveCharacter` builds
      (used only if it runs this frame). */
  datatype FrameInput = FrameInput(
    keys: Keys,
    pivotYaw: real,
    curHealth: real,
    overlayVisible: bool,
    holdingSpaceBar: bool,
    delta: real,
    position: Vec3,
    velocity: Vec3,              // linear velocity read after `moveCharacter`
    characterMass: PosReal,
    moveImpulse: Vec3,
    ground: Option<GroundHit>,
    slope: Option<SlopeHit>,
    slopeAngleSample: real       // the rounded atan value; opaque here
  )

  /** Animation calls the frame makes on the store, in order. */
  datatype Trigger = PlayIdle | PlayWalk | PlayRun | PlayJump | PlayJumpIdle | PlayFall

  /** What a frame does to the world besides updating its own state. */
  datatype Effects = Effects(
    moveCharacter: bool,          // `moveCharacter` ran
    jumpVelocity: Option<Vec3>,   // velocity set by a jump
    jumpPush: Option<Vec3>,       // impulse a jump applies to the standing body
    platformDrag: Option<Vec3>,   // reaction applied to a dynamic platform
    floatImpulse: Option<real>,   // vertical spring impulse on the character
    floatReaction: Option<Vec3>,  // reaction of the spring on the standing body
    dragImpulse: Option<Vec3>,    // idle drag on the character
    triggers: seq<Trigger>
  )

  datatype Step = Step(state: Motion, effects: Effects)

  /** JavaScript's `actualSlopeAngle < slopeMaxAngle`: `null` compares as 0,
      so a slope angle never measured counts as walkable. */
  predicate SlopeWalkable(angle: Option<real>) {
    angle.GetOr(0.0) < SlopeMaxAngle
  }

  function GroundInRange(c: Config, ground: Option<GroundHit>): bool {
    ground.Some? && ground.value.toi < FloatingDis(c) + RayHitForgiveness
  }

  /** The grounded flag `canJump`. A missed or too distant ground ray clears
      it; an in-range hit sets it only when the slope ray of the PREVIOUS
      frame hit and its angle was walkable, and otherwise keeps it. */
  function Grounded(c: Config, prev: bool, ground: Option<GroundHit>, lastSlope: Option<SlopeHit>, angle: Option<real>): (r: bool)
    ensures r ==> GroundInRange(c, ground)
    ensures GroundInRange(c, ground) && lastSlope.Some? && SlopeWalkable(angle) ==> r
    ensures GroundInRange(c, ground) && !(lastSlope.Some? && SlopeWalkable(angle)) ==> r == prev
  {
    if GroundInRange(c, ground) then
      if lastSlope.Some? && SlopeWalkable(angle) then true else prev
    else false
  }

  /** The jump gate: the key, the grounded flag of the previous frame, a live
      character and no overlay. */
  predicate JumpFires(k: Keys, canJump: bool, curHealth: real, overlayVisible: bool) {
    k.jump && canJump && curHealth > 0.0 && !overlayVisible
  }

  /** Base vertical jump speed: 4, or 4.8 while running. */
  function JumpBase(run: bool): (b: real)
    ensures b == (if run then 4.8 else 4.0)
  {
    if run then SprintJumpMult * JumpVel else JumpVel
  }

  /** The velocity a jump sets: the current horizontal velocity with the base
      vertical speed, plus (0, 0.25 * base, 0) projected onto the last slope
      normal. The added lift lies along the normal, and what it leaves of
      (0, 0.25 * base, 0) is orthogonal to the normal. The vertical speed lies
      between the base and 1.25 times it; it is exactly the base while no
      normal has been measured, and on level
      ground the horizontal velocity is kept. */
  function JumpVelocity(v: Vec3, run: bool, normal: Vec3): (r: Vec3)
    ensures JumpBase(run) <= r.y <= JumpBase(run) * (1.0 + SlopeJumpMult)
    ensures normal == Zero ==> r == Vec3(v.x, JumpBase(run), v.z)
    ensures normal.x == 0.0 && normal.z == 0.0 && normal.y != 0.0 ==>
              r == Vec3(v.x, JumpBase(run) * (1.0 + SlopeJumpMult), v.z)
    ensures var lift := Sub(r, Vec3(v.x, JumpBase(run), v.z));
            && Cross(lift, normal) == Zero
            && (LengthSq(normal) != 0.0 ==>
                  Dot(Sub(Vec3(0.0, JumpBase(run) * SlopeJumpMult, 0.0), lift), normal) == 0.0)
  {
    var base := JumpBase(run);
    JumpLiftBounds(base, normal);
    var p := ProjectOnVector(Vec3(0.0, base * SlopeJumpMult, 0.0), normal);
    var r := Vec3(p.x + v.x, p.y + base, p.z + v.z);
    assert Sub(r, Vec3(v.x, base, v.z)) == p;
    r
  }

  /** The jump's slope lift, (0, 0.25 * base, 0) projected onto the slope
      normal, has a vertical part between 0 and 0.25 * base; it vanishes
      without a normal and is the whole lift on level ground. */
  lemma JumpLiftBounds(base: real, normal: Vec3)
    requires base >= 0.0
    ensures var p := ProjectOnVector(Vec3(0.0, base * SlopeJumpMult, 0.0), normal);
            && 0.0 <= p.y <= base * SlopeJumpMult
            && (normal == Zero ==> p == Zero)
            && (normal.x == 0.0 && normal.z == 0.0 && normal.y != 0.0 ==> p == Vec3(0.0, base * SlopeJumpMult, 0.0))
  {
    VerticalProjectionBounds(base * SlopeJumpMult, normal);
    VerticalOntoVertical(base * SlopeJumpMult, normal);
  }

  /** Velocity of a platform's surface at the character: linear velocity plus
      the horizontal part of angular velocity crossed with the offset from
      the platform's centre. */
  function ContactVelocity(p: Platform, position: Vec3): (r: Vec3)
    ensures r.y == p.linvel.y
    ensures p.angvel == Zero ==> r == p.linvel
    ensures position == p.translation ==> r == p.linvel
    ensures var a := Sub(position, p.translation);
            var h := Sub(r, p.linvel);
            p.angvel.x == 0.0 && p.angvel.z == 0.0 ==>
              && h.x * a.x + h.z * a.z == 0.0
              && h.x * h.x + h.z * h.z == p.angvel.y * p.angvel.y * (a.x * a.x + a.z * a.z)
              && a.z * h.x - a.x * h.z == p.angvel.y * (a.x * a.x + a.z * a.z)
  {
    var a := Sub(position, p.translation);
    var arm := Cross(p.angvel, a);
    VerticalSpin(p.angvel, a);
    Vec3(p.linvel.x + arm.x, p.linvel.y, p.linvel.z + arm.z)
  }

  /** A spin about the vertical axis moves a point at horizontal offset `a`
      perpendicular to that offset, at speed |w| times its length, turning
      it counter-clockwise seen from above when w.y > 0 (right-hand rule). */
  lemma VerticalSpin(w: Vec3, a: Vec3)
    ensures var arm := Cross(w, a);
            w.x == 0.0 && w.z == 0.0 ==>
              && arm.x * a.x + arm.z * a.z == 0.0
              && arm.x * arm.x + arm.z * arm.z == w.y * w.y * (a.x * a.x + a.z * a.z)
              && a.z * arm.x - a.x * arm.z == w.y * (a.x * a.x + a.z * a.z)
  {
    if w.x == 0.0 && w.z == 0.0 {
      var arm := Cross(w, a);
      assert arm.x == w.y * a.z && arm.z == -(w.y * a.x);
      assert (w.y * a.z) * a.x == (w.y * a.x) * a.z;
      assert (w.y * a.z) * (w.y * a.z) == w.y * w.y * (a.z * a.z);
      assert (w.y * a.x) * (w.y * a.x) == w.y * w.y * (a.x * a.x);
      assert a.z * (w.y * a.z) + a.x * (w.y * a.x) == w.y * (a.x * a.x + a.z * a.z);
    }
  }

  /** The part of the state the moving-platform coupling updates, and the
      reaction it applies to a dynamic platform. */
  datatype Coupling = Coupling(massRatio: MassRatio, isOnMovingObject: bool, contactForce: Vec3,
                               platformVelocity: Vec3, drag: Option<Vec3>)

  const Detached: Coupling := Coupling(Finite(1.0), false, Zero, Zero, None)

  /** A dynamic (0) or position-based kinematic (2) body. */
  predicate MovingBody(p: Platform) {
    p.bodyType == 0 || p.bodyType == 2
  }

  /** Moving-platform classification. Off the ground, or on a body of any type
      other than 0 or 2, the coupling is reset; on ground without a parent
      body nothing changes; on a body of type 0 or 2 the character rides it,
      taking its surface velocity scaled by the transfer factor. A dynamic
      body also receives a reaction: the accumulated contact force (which is
      then cleared) when no direction key is held, the movement impulse
      otherwise, negated and scaled. */
  function Couple(s: Motion, grounded: bool, ground: Option<GroundHit>, anyDir: bool, delta: real,
                  position: Vec3, characterMass: PosReal, moveImpulse: Vec3): (r: Coupling)
    ensures !(ground.Some? && grounded) ==> r == Detached
    ensures (!s.isOnMovingObject ==> s.massRatio == Finite(1.0) && s.platformVelocity == Zero) ==>
              (!r.isOnMovingObject ==> r.massRatio == Finite(1.0) && r.platformVelocity == Zero)
    ensures ground.Some? && grounded && ground.value.parent.None? ==>
              r == Coupling(s.massRatio, s.isOnMovingObject, s.contactForce, s.platformVelocity, None)
    ensures ground.Some? && grounded && ground.value.parent.Some? && !MovingBody(ground.value.parent.value) ==>
              r == Detached
    ensures ground.Some? && grounded && ground.value.parent.Some? && MovingBody(ground.value.parent.value) ==>
              var p := ground.value.parent.value;
              && r.isOnMovingObject
              && r.massRatio == RatioOf(characterMass, p.mass)
              && r.platformVelocity == Scale(ContactVelocity(p, position), TransferFactor(r.massRatio))
              && (r.drag.Some? <==> p.bodyType == 0)
              && (p.bodyType == 0 && !anyDir ==>
                    r.contactForce == Zero
                    && r.drag == Some(Neg(Scale(Scale(s.contactForce, delta), TransferFactor(r.massRatio)))))
              && (p.bodyType == 0 && anyDir ==>
                    r.contactForce == s.contactForce
                    && r.drag == Some(Neg(Scale(moveImpulse, TransferFactor(r.massRatio)))))
              && (p.bodyType == 2 ==> r.contactForce == s.contactForce)
  {
    if ground.Some? && grounded then
      match ground.value.parent
      case None => Coupling(s.massRatio, s.isOnMovingObject, s.contactForce, s.platformVelocity, None)
      case Some(p) =>
        if MovingBody(p) then
          var m := RatioOf(characterMass, p.mass);
          var f := TransferFactor(m);
          var pv := Scale(ContactVelocity(p, position), f);
          if p.bodyType == 0 then
            if !anyDir then Coupling(m, true, Zero, pv, Some(Neg(Scale(Scale(s.contactForce, delta), f))))
            else Coupling(m, true, s.contactForce, pv, Some(Neg(Scale(moveImpulse, f))))
          else Coupling(m, true, s.contactForce, pv, None)
        else Detached
    else Detached
  }

  /** The float spring: springK * (floatingDis - toi) - vy * dampingC. It is
      zero at rest. With a positive spring constant and non-negative damping
      it pushes up whenever the body is lower than the rest distance and not
      rising, and pulls down whenever it is higher and not falling. */
  function FloatForce(c: Config, toi: real, vy: real): (f: real)
    ensures toi == FloatingDis(c) && vy == 0.0 ==> f == 0.0
    ensures c.springK >= 0.0 && c.dampingC >= 0.0 && toi <= FloatingDis(c) && vy <= 0.0 ==> f >= 0.0
    ensures c.springK >= 0.0 && c.dampingC >= 0.0 && toi >= FloatingDis(c) && vy >= 0.0 ==> f <= 0.0
    ensures c.springK > 0.0 && c.dampingC >= 0.0 && toi < FloatingDis(c) && vy <= 0.0 ==> f > 0.0
    ensures c.springK > 0.0 && c.dampingC >= 0.0 && toi > FloatingDis(c) && vy >= 0.0 ==> f < 0.0
  {
    c.springK * (FloatingDis(c) - toi) - vy * c.dampingC
  }

  /** The spring's reaction on the standing body: it only ever pushes the body
      down, by the spring force when that is positive. */
  function FloatReaction(f: real): (r: Vec3)
    ensures r.x == 0.0 && r.z == 0.0 && r.y <= 0.0
    ensures r.y == -(if f > 0.0 then f else 0.0)
  {
    Vec3(0.0, if f > 0.0 then -f else 0.0, 0.0)
  }

  /** The horizontal velocity of the character relative to what it stands
      on: the ground, or the platform it rides. */
  function RelativeHorizontal(v: Vec3, onMoving: bool, platformVelocity: Vec3): Vec3 {
    var under := if onMoving then platformVelocity else Zero;
    Vec3(v.x - under.x, 0.0, v.z - under.z)
  }

  /** Drag while grounded with no direction key: 15% of the horizontal
      velocity relative to the ground or the riding platform, against it. */
  function IdleDrag(v: Vec3, onMoving: bool, platformVelocity: Vec3): (r: Vec3)
    ensures r.y == 0.0
    ensures Add(r, Scale(RelativeHorizontal(v, onMoving, platformVelocity), DragDampingC)) == Zero
    ensures Dot(r, RelativeHorizontal(v, onMoving, platformVelocity)) <= 0.0
  {
    if !onMoving then Vec3(-v.x * DragDampingC, 0.0, -v.z * DragDampingC)
    else Vec3((platformVelocity.x - v.x) * DragDampingC, 0.0, (platformVelocity.z - v.z) * DragDampingC)
  }

  /** The gravity-scale switch. Below the terminal speed a non-zero scale
      becomes 0; otherwise a falling body gets 2.5 and a body that is not
      falling gets its initial scale. A scale of 0 is never kept: the next
      frame always sets a non-zero one. */
  function GravityStep(g: real, vy: real, falling: bool, initial: real): (r: real)
    requires initial != 0.0
    ensures r == 0.0 ==> g != 0.0
    ensures vy < FallingMaxVel && g != 0.0 ==> r == 0.0
    ensures !(vy < FallingMaxVel && g != 0.0) && falling ==> r == FallingGravityScale
    ensures !(vy < FallingMaxVel && g != 0.0) && !falling ==> r == initial
  {
    if vy < FallingMaxVel && g != 0.0 then 0.0
    else if falling && g != FallingGravityScale then FallingGravityScale
    else if !falling && g != initial then initial
    else g
  }

  /** Animation calls of a frame. None for a dead character or under the
      overlay. Otherwise at most one of idle, jump, walk/run, jump-idle, in
      that priority, followed by fall when the ground ray missed and the body
      is falling. */
  function SelectTriggers(k: Keys, curHealth: real, overlayVisible: bool, holding: bool,
                          canJump: bool, groundMissed: bool, falling: bool): (r: seq<Trigger>)
    ensures curHealth <= 0.0 || overlayVisible ==> r == []
    ensures |r| <= 2
    ensures PlayFall in r <==> curHealth > 0.0 && !overlayVisible && groundMissed && falling
    ensures PlayFall in r ==> r[|r| - 1] == PlayFall
    ensures forall i :: 0 <= i < |r| - 1 ==> r[i] != PlayFall
    ensures curHealth > 0.0 && !overlayVisible ==>
              && (!AnyDirection(k) && !k.jump && canJump ==> |r| > 0 && r[0] == PlayIdle)
              && (!(!AnyDirection(k) && !k.jump && canJump) && k.jump && canJump && !holding ==> |r| > 0 && r[0] == PlayJump)
              && (!canJump ==> |r| > 0 && r[0] == PlayJumpIdle)
    ensures PlayJumpIdle in r <==> curHealth > 0.0 && !overlayVisible && !canJump
    ensures (PlayWalk in r || PlayRun in r) <==>
              curHealth > 0.0 && !overlayVisible && canJump && AnyDirection(k) && !holding && !k.jump
    ensures PlayRun in r ==> k.run
    ensures PlayWalk in r ==> !k.run
    ensures forall j :: 1 <= j < |r| ==> r[j] == PlayFall
    ensures PlayIdle in r <==> curHealth > 0.0 && !overlayVisible && !AnyDirection(k) && !k.jump && canJump
    ensures PlayJump in r <==> curHealth > 0.0 && !overlayVisible && k.jump && canJump && !holding
  {
    if curHealth <= 0.0 || overlayVisible then []
    else
      var first :=
        if !AnyDirection(k) && !k.jump && canJump then [PlayIdle]
        else if k.jump && canJump && !holding then [PlayJump]
        else if canJump && AnyDirection(k) && !holding then (if k.run then [PlayRun] else [PlayWalk])
        else if !canJump then [PlayJumpIdle]
        else [];
      first + (if groundMissed && falling then [PlayFall] else [])
  }

  /** One frame of the controller. Its properties are the lemmas of
      `FrameProperties`, `FrameKeepsReady` and `FramePreservesConsistent`. */
  function Frame(c: Config, s: Motion, i: FrameInput): (r: Step)
    requires Ready(s)
  {
    var anyDir := AnyDirection(i.keys);
    var heading := UpdateHeading(s.heading, i.keys, i.pivotYaw);
    // movement
    var moved := anyDir && i.curHealth > 0.0;
    var moveImpulse := if moved then i.moveImpulse else s.moveImpulse;
    // jump, using the previous frame's grounded flag, slope normal and ground hit
    var v := i.velocity;
    var jumped := JumpFires(i.keys, s.canJump, i.curHealth, i.overlayVisible);
    var jumpVel := JumpVelocity(v, i.keys.run, s.slopeNormal);
    var bodyVel := if jumped then jumpVel else v;
    var massForce := if jumped then s.massForce.(y := s.massForce.y * JumpForceToGroundMult) else s.massForce;
    var jumpPush := if jumped && s.lastGround.value.parent.Some? then Some(massForce) else None;
    // ground ray
    var grounded := Grounded(c, s.canJump, i.ground, s.lastSlope, s.actualSlopeAngle);
    var cp := Couple(s, grounded, i.ground, anyDir, i.delta, i.position, i.characterMass, moveImpulse);
    // slope ray
    var slopeNormal := if i.slope.Some? && i.slope.value.normal.Some? then i.slope.value.normal.value.normal else s.slopeNormal;
    var slopeAngleMeasured := if i.slope.Some? && i.slope.value.normal.Some? then Some(i.slope.value.normal.value.angle) else s.actualSlopeAngle;
    var slopeAngle :=
      if i.slope.Some? && i.ground.Some? && i.slope.value.toi < FloatingDis(c) + SlopeRayMargin && grounded
      then Some(i.slopeAngleSample) else None;
    // float spring, using the velocity after a jump
    var floats := i.ground.Some? && grounded && i.ground.value.parent.Some?;
    var ff := FloatForce(c, if i.ground.Some? then i.ground.value.toi else 0.0, bodyVel.y);
    var massForce' := if floats then FloatReaction(ff) else massForce;
    // idle drag, using the velocity read before a jump
    var drag := if !anyDir && grounded then Some(IdleDrag(v, cp.isOnMovingObject, cp.platformVelocity)) else None;
    // falling and gravity
    var falling := v.y < 0.0 && !grounded;
    var gravity := GravityStep(s.gravityScale, v.y, falling, InitialGravityScale(c));
    var triggers := SelectTriggers(i.keys, i.curHealth, i.overlayVisible, i.holdingSpaceBar, grounded, i.ground.None?, falling);
    var state := Motion(grounded, falling, cp.massRatio, cp.isOnMovingObject, cp.contactForce, cp.platformVelocity,
                        gravity, heading, i.ground, i.slope, slopeAngleMeasured, slopeNormal, slopeAngle,
                        moveImpulse, massForce');
    var effects := Effects(moved, if jumped then Some(jumpVel) else None, jumpPush, cp.drag,
                           if floats then Some(ff) else None, if floats then Some(massForce') else None,
                           drag, triggers);
    Step(state, effects)
  }

  /** Every frame preserves the reachable-state invariant. */
  lemma FramePreservesConsistent(c: Config, s: Motion, i: FrameInput)
    requires Ready(s)
    ensures Consistent(c, s) ==> Consistent(c, Frame(c, s, i).state)
  {
    if Consistent(c, s) {
      FrameGroundedHasHit(c, s, i);
      FrameFallingNotGrounded(c, s, i);
      FrameSlopeAngleGrounded(c, s, i);
      FrameDetachedAtRest(c, s, i);
    }
  }

  /** Every frame leaves a state the next frame can run on. */
  lemma FrameKeepsReady(c: Config, s: Motion, i: FrameInput)
    requires Ready(s)
    ensures Ready(Frame(c, s, i).state)
  {
  }

  lemma FrameGroundedHasHit(c: Config, s: Motion, i: FrameInput)
    requires Consistent(c, s)
    ensures Frame(c, s, i).state.canJump ==> GroundInRange(c, Frame(c, s, i).state.lastGround)
  {
  }

  lemma FrameFallingNotGrounded(c: Config, s: Motion, i: FrameInput)
    requires Consistent(c, s)
    ensures Frame(c, s, i).state.isFalling ==> !Frame(c, s, i).state.canJump
  {
  }

  lemma FrameSlopeAngleGrounded(c: Config, s: Motion, i: FrameInput)
    requires Consistent(c, s)
    ensures Frame(c, s, i).state.slopeAngle.Some? ==> Frame(c, s, i).state.canJump
  {
  }

  lemma FrameDetachedAtRest(c: Config, s: Motion, i: FrameInput)
    requires Consistent(c, s)
    ensures !Frame(c, s, i).state.isOnMovingObject ==>
              Frame(c, s, i).state.massRatio == Finite(1.0) && Frame(c, s, i).state.platformVelocity == Zero
  {
  }

  /** The contact-force callback: it overwrites the accumulator with the
      engine's total force, but only for a live character without overlay. */
  function OnContactForce(s: Motion, curHealth: real, overlayVisible: bool, totalForce: Vec3): (r: Motion)
    ensures curHealth > 0.0 && !overlayVisible ==> r.contactForce == totalForce
    ensures !(curHealth > 0.0 && !overlayVisible) ==> r == s
    ensures r.(contactForce := s.contactForce) == s
  {
    if curHealth > 0.0 && !overlayVisible then s.(contactForce := totalForce) else s
  }

  /** The collision-exit callback clears the accumulator. */
  function OnCollisionExit(s: Motion): (r: Motion)
    ensures r.contactForce == Zero && r.(contactForce := s.contactForce) == s
  {
    s.(contactForce := Zero)
  }
}

=== FILE: direction.dfy ===
/** The 8-way key-to-facing table of the controller (`getMovingDirection`)
    and the target facing it feeds (`modelEuler.y`).

    A facing is kept symbolically as the camera pivot's yaw plus a whole
    number of eighths of a turn (each eighth is pi/4 radians), so the table
    needs no trigonometry. */
module Direction {
  import opened Wrappers

  /** The keyboard state sampled at the start of a frame. */
  datatype Keys = Keys(forward: bool, backward: bool, leftward: bool, rightward: bool, jump: bool, run: bool)

  predicate AnyDirection(k: Keys) {
    k.forward || k.backward || k.leftward || k.rightward
  }

  /** A yaw of `pivotYaw + eighths * pi/4` radians. */
  datatype Heading = Heading(pivotYaw: real, eighths: int)

  /** Position of a key combination in `OffsetTable`: forward is worth 8,
      backward 4, leftward 2 and rightward 1. */
  function KeyIndex(k: Keys): (i: nat)
    ensures i < 16
  {
    (if k.forward then 8 else 0) + (if k.backward then 4 else 0)
    + (if k.leftward then 2 else 0) + (if k.rightward then 1 else 0)
  }

  /** The offset of every one of the sixteen direction-key combinations,
      written out as a literal lookup table. */
  const OffsetTable: seq<Option<int>> := [
    None,       // no key
    Some(2),    // R
    Some(-2),   // L
    Some(-2),   // L+R: leftward wins
    Some(0),    // B
    Some(3),    // B+R
    Some(5),    // B+L
    Some(5),    // B+L+R
    Some(4),    // F
    Some(1),    // F+R
    Some(-1),   // F+L
    Some(-1),   // F+L+R
    Some(0),    // F+B: backward wins
    Some(1),    // F+B+R
    Some(-1),   // F+B+L
    Some(-1)    // all four
  ]

  /** `getMovingDirection`: no result when no direction key is held, else the
      offset (in eighths of a turn) chosen by the first rule that matches:
      F+L, F+R, B+L, B+R, B, L, R, F. */
  function MovingDirection(k: Keys): (r: Option<int>)
    ensures r.None? <==> !AnyDirection(k)
    ensures r == OffsetTable[KeyIndex(k)]
    ensures r.Some? ==> -2 <= r.value <= 5
  {
    if !k.forward && !k.backward && !k.leftward && !k.rightward then None
    else if k.forward && k.leftward then Some(-1)
    else if k.forward && k.rightward then Some(1)
    else if k.backward && k.leftward then Some(5)
    else if k.backward && k.rightward then Some(3)
    else if k.backward then Some(0)
    else if k.leftward then Some(-2)
    else if k.rightward then Some(2)
    else Some(4)
  }

  /** The target facing after a frame: kept when no direction key is held,
      otherwise the pivot's current yaw plus the table's offset. Health plays
      no part: the facing is updated even for a character that is not alive. */
  function UpdateHeading(h: Heading, k: Keys, pivotYaw: real): (r: Heading)
    ensures !AnyDirection(k) ==> r == h
    ensures AnyDirection(k) ==> r.pivotYaw == pivotYaw && Some(r.eighths) == OffsetTable[KeyIndex(k)]
  {
    match MovingDirection(k)
    case None => h
    case Some(e) => Heading(pivotYaw, e)
  }

  /** Opposing keys do not cancel: forward+backward faces the pivot's own
      yaw (as backward alone does) and leftward+rightward faces a quarter turn
      to the left (as leftward alone does). */
  lemma OpposingKeysDoNotCancel(k: Keys)
    ensures k.forward && k.backward && !k.leftward && !k.rightward ==> MovingDirection(k) == Some(0)
    ensures k.leftward && k.rightward && !k.forward && !k.backward ==> MovingDirection(k) == Some(-2)
  {
  }
}

=== FILE: end_to_end.dfy ===
/** A frame's animation calls applied to the game store: what the player
    sees after one frame, and after a run of frames. */
module EndToEnd {
  import opened Direction
  import opened Controller
  import opened GameStore

  /** The store transition each animation call invokes. */
  function ApplyTrigger(g: Game, t: Trigger): (r: Game)
    ensures OnlyAnimationChanged(g, r)
    ensures t == PlayJump ==> r.curAnimation == g.Anim("jump")
    ensures t == PlayFall ==> r.curAnimation == g.Anim("fall")
    ensures t == PlayWalk ==> r.curAnimation == g.Anim("walk") || r == g
    ensures t == PlayRun ==> r.curAnimation == g.Anim("run") || r == g
    ensures t == PlayJumpIdle ==> r.curAnimation == g.Anim("jumpIdle") || r == g
  {
    match t
    case PlayIdle => Idle(g)
    case PlayWalk => Walk(g)
    case PlayRun => Run(g)
    case PlayJump => Jump(g)
    case PlayJumpIdle => JumpIdle(g)
    case PlayFall => Fall(g)
  }

  /** The calls of one frame, in order. */
  function ApplyTriggers(g: Game, ts: seq<Trigger>): (r: Game)
    ensures OnlyAnimationChanged(g, r)
    ensures ts == [] ==> r == g
    ensures |ts| > 0 && ts[|ts| - 1] == PlayFall ==> r.curAnimation == g.Anim("fall")
    decreases |ts|
  {
    if ts == [] then g else ApplyTriggers(ApplyTrigger(g, ts[0]), ts[1..])
  }

  /** A frame of a dead character, or one under the overlay, leaves the
      store's animation as it was. */
  lemma SuspendedFrameKeepsAnimation(c: Config, s: Motion, i: FrameInput, g: Game)
    requires Ready(s)
    requires i.curHealth <= 0.0 || i.overlayVisible
    ensures ApplyTriggers(g, Frame(c, s, i).effects.triggers) == g
  {
  }

  /** A frame whose ground ray misses while the body moves down ends on the
      fall animation. */
  lemma MissedGroundWhileDescendingShowsFall(c: Config, s: Motion, i: FrameInput, g: Game)
    requires Ready(s)
    requires i.curHealth > 0.0 && !i.overlayVisible
    requires i.ground.None? && i.velocity.y < 0.0
    ensures Frame(c, s, i).effects.triggers == [PlayJumpIdle, PlayFall]
    ensures ApplyTriggers(g, Frame(c, s, i).effects.triggers).curAnimation == g.Anim("fall")
  {
  }

  /** A live character pressing jump on walkable ground, not holding the
      space bar, plays the jump animation and leaves the ground at no less
      than the base jump speed. */
  lemma JumpFrameShowsJump(c: Config, s: Motion, i: FrameInput, g: Game)
    requires Ready(s)
    requires i.curHealth > 0.0 && !i.overlayVisible && !i.holdingSpaceBar
    requires i.keys.jump && s.canJump && GroundInRange(c, i.ground)
    ensures Frame(c, s, i).effects.triggers == [PlayJump]
    ensures ApplyTriggers(g, Frame(c, s, i).effects.triggers).curAnimation == g.Anim("jump")
    ensures Frame(c, s, i).effects.jumpVelocity.Some?
            && Frame(c, s, i).effects.jumpVelocity.value.y >= JumpVel
  {
  }

  /** A frame of a live character with no key held, no overlay, an
      in-range ground hit and a walkable slope sample on this frame. */
  predicate StandingStill(c: Config, i: FrameInput) {
    && !AnyDirection(i.keys) && !i.keys.jump
    && i.curHealth > 0.0 && !i.overlayVisible
    && GroundInRange(c, i.ground)
    && i.slope.Some? && i.slope.value.normal.Some? && i.slope.value.normal.value.angle < SlopeMaxAngle
  }

  /** The state is ready to count as grounded on the next in-range hit. */
  predicate Settled(s: Motion) {
    s.canJump || (s.lastSlope.Some? && SlopeWalkable(s.actualSlopeAngle))
  }

  /** Runs frames, applying each frame's animation calls to the store. */
  function Play(c: Config, s: Motion, g: Game, ins: seq<FrameInput>): (r: (Motion, Game))
    requires Ready(s)
    ensures Ready(r.0)
    ensures Consistent(c, s) ==> Consistent(c, r.0)
    ensures OnlyAnimationChanged(g, r.1)
    decreases |ins|
  {
    if ins == [] then (s, g)
    else
      var step := Frame(c, s, ins[0]);
      FrameKeepsReady(c, s, ins[0]);
      FramePreservesConsistent(c, s, ins[0]);
      Play(c, step.state, ApplyTriggers(g, step.effects.triggers), ins[1..])
  }

  /** Standing still on walkable ground keeps the character grounded and
      calls exactly `idle()` once per frame. */
  lemma {:induction false} StandingStillCallsIdle(c: Config, s: Motion, g: Game, ins: seq<FrameInput>)
    requires Ready(s) && Settled(s)
    requires forall k :: 0 <= k < |ins| ==> StandingStill(c, ins[k])
    ensures Play(c, s, g, ins).1 == IdleTimes(g, |ins|)
    ensures |ins| > 0 ==> Play(c, s, g, ins).0.canJump
    decreases |ins|
  {
    if ins != [] {
      var last := ins[|ins| - 1];
      var init := ins[..|ins| - 1];
      assert init + [last] == ins;
      assert forall k :: 0 <= k < |init| ==> init[k] == ins[k];
      StandingStillCallsIdle(c, s, g, init);
      PlaySplit(c, s, g, init, last);
      var p := Play(c, s, g, init);
      assert Settled(p.0) by {
        if init != [] {
          assert p.0.canJump;
        }
      }
      assert Frame(c, p.0, last).effects.triggers == [PlayIdle];
      assert ApplyTriggers(p.1, [PlayIdle]) == Idle(p.1);
    }
  }

  /** Playing `ins + [last]` is playing `ins` and then one more frame. */
  lemma {:induction false} PlaySplit(c: Config, s: Motion, g: Game, ins: seq<FrameInput>, last: FrameInput)
    requires Ready(s)
    ensures var p := Play(c, s, g, ins);
            var step := Frame(c, p.0, last);
            Play(c, s, g, ins + [last]) == (step.state, ApplyTriggers(p.1, step.effects.triggers))
    decreases |ins|
  {
    if ins == [] {
      assert ins + [last] == [last];
    } else {
      var step := Frame(c, s, ins[0]);
      assert (ins + [last])[0] == ins[0];
      assert (ins + [last])[1..] == ins[1..] + [last];
      PlaySplit(c, step.state, ApplyTriggers(g, step.effects.triggers), ins[1..], last);
    }
  }

  /** End to end with the shipped animation table: a character that stands
      still after a jump or fall (store on "JumpIdle") shows "JumpLand" from
      the first still frame on and never returns to "Idle". */
  lemma ShippedTableStaysOnLanding(c: Config, s: Motion, g: Game, ins: seq<FrameInput>)
    requires Ready(s) && Settled(s)
    requires g.animationSet == ShippedSet && g.curAnimation == Name("JumpIdle")
    requires |ins| >= 1 && forall k :: 0 <= k < |ins| ==> StandingStill(c, ins[k])
    ensures Play(c, s, g, ins).1.curAnimation == Name("JumpLand")
  {
    StandingStillCallsIdle(c, s, g, ins);
    ShippedLandingNeverIdles(g, |ins|);
  }

  /** With idle and jump-idle names that differ, standing still settles:
      from the second still frame on, further still frames change nothing. */
  lemma StandingStillSettles(c: Config, s: Motion, g: Game, ins: seq<FrameInput>, more: FrameInput)
    requires Ready(s) && Settled(s)
    requires g.Anim("idle") != g.Anim("jumpIdle")
    requires |ins| >= 2 && forall k :: 0 <= k < |ins| ==> StandingStill(c, ins[k])
    requires StandingStill(c, more)
    ensures Play(c, s, g, ins + [more]).1 == Play(c, s, g, ins).1
  {
    StandingStillCallsIdle(c, s, g, ins);
    assert forall k :: 0 <= k < |ins + [more]| ==> StandingStill(c, (ins + [more])[k]);
    StandingStillCallsIdle(c, s, g, ins + [more]);
    IdleTimesSettle(g, |ins|);
  }

  lemma {:induction false} IdleTimesSettle(g: Game, n: nat)
    requires g.Anim("idle") != g.Anim("jumpIdle") && n >= 2
    ensures IdleTimes(g, n + 1) == IdleTimes(g, n)
    decreases n
  {
    if n == 2 {
      assert IdleTimes(g, 1) == Idle(g) by { assert IdleTimes(g, 0) == g; }
      IdleSettles(g);
    } else {
      IdleTimesSettle(g, n - 1);
    }
  }
}

=== FILE: follow_cam.dfy ===
/** The follow camera's discrete rules: the zoom and pitch range guards of the
    wheel and mouse handlers and the choice of camera distance after the
    collision ray. Camera positions (sines, cosines, lerps) are not modelled. */
module FollowCam {
  /** Camera options. Distances are negative: the camera sits behind the
      pivot on its local -z axis, and `maxDis <= minDis`. */
  datatype CamSettings = CamSettings(initDis: real, maxDis: real, minDis: real, moveSpeed: real,
                                     zoomSpeed: real, collisionOffset: real)

  const DefaultCam: CamSettings := CamSettings(-2.0, -2.0, -2.0, 1.0, 1.0, 0.7)

  const PitchMin: real := -0.5
  const PitchMax: real := 1.5
  const NearestCameraDistance: real := -0.7

  /** The pivot's yaw, the follow camera's pitch and its zoom distance. */
  datatype CamRig = CamRig(originZDis: real, pivotYaw: real, pitch: real)

  function InitialRig(c: CamSettings): CamRig {
    CamRig(c.initDis, 0.0, 0.0)
  }

  predicate ZoomInRange(c: CamSettings, rig: CamRig) {
    c.maxDis <= rig.originZDis <= c.minDis
  }

  predicate PitchInRange(rig: CamRig) {
    PitchMin <= rig.pitch <= PitchMax
  }

  /** The wheel handler: the candidate distance is accepted only inside
      [maxDis, minDis]; otherwise nothing changes. Yaw and pitch never change. */
  function Wheel(c: CamSettings, rig: CamRig, deltaY: real): (r: CamRig)
    ensures r.pivotYaw == rig.pivotYaw && r.pitch == rig.pitch
    ensures ZoomInRange(c, rig) ==> ZoomInRange(c, r)
    ensures r != rig ==> ZoomInRange(c, r)
    ensures r == rig || r.originZDis == rig.originZDis - deltaY * 0.002 * c.zoomSpeed
    ensures c.maxDis <= rig.originZDis - deltaY * 0.002 * c.zoomSpeed <= c.minDis ==>
              r.originZDis == rig.originZDis - deltaY * 0.002 * c.zoomSpeed
  {
    var vz := rig.originZDis - deltaY * 0.002 * c.zoomSpeed;
    if vz >= c.maxDis && vz <= c.minDis then rig.(originZDis := vz) else rig
  }

  /** The mouse-move handler: nothing unless the pointer is locked or a button
      is down. Then yaw always turns by the horizontal movement, and the pitch
      takes its new value only inside [-0.5, 1.5]. The zoom never changes. */
  function MouseMove(c: CamSettings, rig: CamRig, pointerLocked: bool, mouseDown: bool,
                     movementX: real, movementY: real): (r: CamRig)
    ensures r.originZDis == rig.originZDis
    ensures !(pointerLocked || mouseDown) ==> r == rig
    ensures pointerLocked || mouseDown ==> r.pivotYaw == rig.pivotYaw - movementX * 0.002 * c.moveSpeed
    ensures PitchInRange(rig) ==> PitchInRange(r)
    ensures r.pitch != rig.pitch ==> PitchInRange(r) && r.pitch == rig.pitch + movementY * 0.002 * c.moveSpeed
    ensures (pointerLocked || mouseDown) && PitchMin <= rig.pitch + movementY * 0.002 * c.moveSpeed <= PitchMax ==>
              r.pitch == rig.pitch + movementY * 0.002 * c.moveSpeed
  {
    if pointerLocked || mouseDown then
      var yaw := rig.pivotYaw - movementX * 0.002 * c.moveSpeed;
      var vy := rig.pitch + movementY * 0.002 * c.moveSpeed;
      if vy >= PitchMin && vy <= PitchMax then CamRig(rig.originZDis, yaw, vy)
      else CamRig(rig.originZDis, yaw, rig.pitch)
    else rig
  }

  /** A re-render of the component using the hook. The zoom distance is a
      `let` of the hook and starts again from the initial distance, since the
      handlers are registered afresh after every render. Yaw and pitch live
      on memoised objects and are kept. */
  function Rerender(c: CamSettings, rig: CamRig): (r: CamRig)
    ensures r.originZDis == InitialRig(c).originZDis
    ensures r.pivotYaw == rig.pivotYaw && r.pitch == rig.pitch
    ensures PitchInRange(rig) ==> PitchInRange(r)
    ensures ZoomInRange(c, r) <==> ZoomInRange(c, InitialRig(c))
  {
    rig.(originZDis := c.initDis)
  }

  /** Something the camera reacts to: a wheel or mouse-move event, or a
      re-render. */
  datatype CamEvent =
    | WheelEvent(deltaY: real)
    | MoveEvent(pointerLocked: bool, mouseDown: bool, movementX: real, movementY: real)
    | RenderEvent

  function Handle(c: CamSettings, rig: CamRig, e: CamEvent): CamRig {
    match e
    case WheelEvent(d) => Wheel(c, rig, d)
    case MoveEvent(l, m, x, y) => MouseMove(c, rig, l, m, x, y)
    case RenderEvent => Rerender(c, rig)
  }

  function HandleAll(c: CamSettings, rig: CamRig, es: seq<CamEvent>): CamRig
    decreases |es|
  {
    if es == [] then rig else HandleAll(c, Handle(c, rig, es[0]), es[1..])
  }

  /** Pitch stays in range through any sequence of events that starts in
      range. So does the zoom, when it starts in range and any re-render in
      the sequence resets it to an in-range initial distance. */
  lemma {:induction false} RangesInvariant(c: CamSettings, rig: CamRig, es: seq<CamEvent>)
    requires PitchInRange(rig)
    ensures PitchInRange(HandleAll(c, rig, es))
    ensures ZoomInRange(c, rig) && (RenderEvent in es ==> ZoomInRange(c, InitialRig(c))) ==>
              ZoomInRange(c, HandleAll(c, rig, es))
    decreases |es|
  {
    if es != [] {
      assert es == [es[0]] + es[1..];
      RangesInvariant(c, Handle(c, rig, es[0]), es[1..]);
    }
  }

  /** With the default options (initial, nearest and farthest distances all
      -2) the zoom distance is -2 after any sequence of events. */
  lemma DefaultZoomFixed(es: seq<CamEvent>)
    ensures HandleAll(DefaultCam, InitialRig(DefaultCam), es).originZDis == -2.0
  {
    RangesInvariant(DefaultCam, InitialRig(DefaultCam), es);
  }

  /** Camera distance after the collision ray. `hits` are the ray's hit
      distances, nearest first. If the nearest is no farther than the zoom
      distance the camera moves to min(-d * collisionOffset, -0.7), so never
      closer than 0.7 to the pivot; otherwise it uses the zoom distance. */
  function SmallestDistance(c: CamSettings, originZDis: real, hits: seq<real>): (d: real)
    ensures |hits| > 0 && hits[0] <= -originZDis ==>
              d <= NearestCameraDistance && d <= -hits[0] * c.collisionOffset
              && (d == NearestCameraDistance || d == -hits[0] * c.collisionOffset)
    ensures !(|hits| > 0 && hits[0] <= -originZDis) ==> d == originZDis
  {
    if |hits| > 0 && hits[0] <= -originZDis then
      if -hits[0] * c.collisionOffset < NearestCameraDistance then -hits[0] * c.collisionOffset
      else NearestCameraDistance
    else originZDis
  }

  /** With an offset in [0, 1], a non-negative hit distance and a zoom
      distance of at least 0.7, the collision never pushes the camera farther
      out than the zoom distance, and never nearer than 0.7. */
  lemma CollisionPullsInward(c: CamSettings, originZDis: real, hits: seq<real>)
    requires 0.0 <= c.collisionOffset <= 1.0
    requires |hits| > 0 ==> hits[0] >= 0.0
    requires originZDis <= NearestCameraDistance
    ensures originZDis <= SmallestDistance(c, originZDis, hits) <= NearestCameraDistance
  {
    if |hits| > 0 && hits[0] <= -originZDis {
      var h := hits[0];
      assert h * c.collisionOffset <= h * 1.0;
      assert (-h) * c.collisionOffset == -(h * c.collisionOffset);
      assert (-h) * c.collisionOffset >= originZDis;
      var d := SmallestDistance(c, originZDis, hits);
      assert d == (-h) * c.collisionOffset || d == NearestCameraDistance;
    }
  }

  /** Zoomed in closer than 0.7, a near hit pushes the camera OUT to -0.7,
      farther from the pivot than its zoom distance. */
  lemma CollisionPushesOutWhenZoomedClose(c: CamSettings, originZDis: real, hits: seq<real>)
    requires 0.0 <= c.collisionOffset <= 1.0
    requires NearestCameraDistance < originZDis
    requires |hits| > 0 && 0.0 <= hits[0] <= -originZDis
    ensures SmallestDistance(c, originZDis, hits) == NearestCameraDistance < originZDis
  {
    var h := hits[0];
    assert h * c.collisionOffset <= h * 1.0;
    assert (-h) * c.collisionOffset == -(h * c.collisionOffset);
    assert (-h) * c.collisionOffset >= originZDis;
  }
}

=== FILE: frame_properties.dfy ===
/** Properties of a whole controller frame and of runs of frames. */
module FrameProperties {
  import opened Wrappers
  import opened Vectors
  import opened Direction
  import opened Controller

  /** The facing is kept when no direction key is held and otherwise follows
      the table; `moveCharacter` runs exactly when a direction key is held by
      a live character. */
  lemma FrameFacingAndMovement(c: Config, s: Motion, i: FrameInput)
    requires Ready(s)
    ensures !AnyDirection(i.keys) ==> Frame(c, s, i).state.heading == s.heading
    ensures AnyDirection(i.keys) ==>
              Frame(c, s, i).state.heading == Heading(i.pivotYaw, MovingDirection(i.keys).value)
    ensures Frame(c, s, i).effects.moveCharacter <==> AnyDirection(i.keys) && i.curHealth > 0.0
  {
  }

  /** The grounded flag of a frame: false without an in-range ground hit;
      true with one when the previous frame's slope sample was walkable. */
  lemma FrameGrounded(c: Config, s: Motion, i: FrameInput)
    requires Ready(s)
    ensures !GroundInRange(c, i.ground) ==> !Frame(c, s, i).state.canJump
    ensures GroundInRange(c, i.ground) && s.lastSlope.Some? && SlopeWalkable(s.actualSlopeAngle) ==>
              Frame(c, s, i).state.canJump
    ensures GroundInRange(c, i.ground) && !(s.lastSlope.Some? && SlopeWalkable(s.actualSlopeAngle)) ==>
              Frame(c, s, i).state.canJump == s.canJump
  {
  }

  /** The slope ray is cast after the grounded test, so this frame's slope
      sample cannot change this frame's grounded flag, falling flag, gravity
      or animation calls: it only takes effect in the next frame. */
  lemma SlopeSampleActsNextFrame(c: Config, s: Motion, i: FrameInput, other: Option<SlopeHit>, otherAngle: real)
    requires Ready(s)
    ensures var a := Frame(c, s, i);
            var b := Frame(c, s, i.(slope := other, slopeAngleSample := otherAngle));
            a.state.canJump == b.state.canJump && a.state.isFalling == b.state.isFalling
            && a.state.gravityScale == b.state.gravityScale && a.effects.triggers == b.effects.triggers
  {
  }

  /** A frame not standing on anything detaches the character from any
      platform; a frame standing on ground without a parent body keeps the
      previous coupling. */
  lemma FramePlatformCoupling(c: Config, s: Motion, i: FrameInput)
    requires Ready(s)
    ensures !Frame(c, s, i).state.canJump ==>
              var n := Frame(c, s, i).state;
              n.massRatio == Finite(1.0) && !n.isOnMovingObject && n.contactForce == Zero && n.platformVelocity == Zero
    ensures Frame(c, s, i).state.canJump && i.ground.value.parent.None? ==>
              var n := Frame(c, s, i).state;
              n.massRatio == s.massRatio && n.isOnMovingObject == s.isOnMovingObject
              && n.contactForce == s.contactForce && n.platformVelocity == s.platformVelocity
  {
  }

  /** The float spring acts exactly when the character is grounded on a
      collider with a parent body, and its reaction never pulls the body up. */
  lemma FrameFloat(c: Config, s: Motion, i: FrameInput)
    requires Ready(s)
    ensures var r := Frame(c, s, i);
            (r.effects.floatImpulse.Some? <==> r.state.canJump && i.ground.value.parent.Some?)
            && (r.effects.floatReaction.Some? <==> r.effects.floatImpulse.Some?)
            && (r.effects.floatReaction.Some? ==> r.effects.floatReaction.value.y <= 0.0)
  {
  }

  /** Falling is "moving down and not grounded"; the idle drag is applied
      exactly when grounded without a direction key. */
  lemma FrameFallingAndDrag(c: Config, s: Motion, i: FrameInput)
    requires Ready(s)
    ensures var r := Frame(c, s, i);
            (r.state.isFalling <==> i.velocity.y < 0.0 && !r.state.canJump)
            && (r.effects.dragImpulse.Some? <==> r.state.canJump && !AnyDirection(i.keys))
  {
  }

  /** A jump happens exactly when the key is held, the previous frame was
      grounded, the character is alive and no overlay is shown. It keeps
      the vertical speed between the base and 1.25 times the base, and pushes
      the standing body with five times the last spring reaction. */
  lemma FrameJump(c: Config, s: Motion, i: FrameInput)
    requires Ready(s)
    ensures var r := Frame(c, s, i);
            && (r.effects.jumpVelocity.Some? <==> JumpFires(i.keys, s.canJump, i.curHealth, i.overlayVisible))
            && (r.effects.jumpVelocity.Some? ==>
                  JumpBase(i.keys.run) <= r.effects.jumpVelocity.value.y <= 1.25 * JumpBase(i.keys.run))
            && (r.effects.jumpPush.Some? ==>
                  r.effects.jumpVelocity.Some?
                  && r.effects.jumpPush.value == s.massForce.(y := 5.0 * s.massForce.y))
  {
  }

  /** The ground ray missing makes the frame ungrounded, so whenever a frame
      calls fall it has called jump-idle just before, and nothing else. */
  lemma FallFollowsJumpIdle(c: Config, s: Motion, i: FrameInput)
    requires Ready(s)
    ensures PlayFall in Frame(c, s, i).effects.triggers ==>
              Frame(c, s, i).effects.triggers == [PlayJumpIdle, PlayFall]
  {
    var r := Frame(c, s, i);
    if PlayFall in r.effects.triggers {
      assert i.ground.None? && !r.state.canJump;
    }
  }

  /** A render clears the previous frame's slope ray hit, and the grounded
      flag is set only when that hit exists: the first frame after a render
      is never grounded, cannot jump, and for a live character without the
      overlay calls jump-idle. */
  lemma FirstFrameAfterRender(c: Config, s: Motion, i: FrameInput)
    ensures var r := Frame(c, Rerender(s), i);
            && !r.state.canJump
            && r.effects.jumpVelocity.None?
            && (i.curHealth > 0.0 && !i.overlayVisible ==> PlayJumpIdle in r.effects.triggers)
  {
  }

  /** The states a run of frames passes through, the start included. */
  function Trace(c: Config, s: Motion, ins: seq<FrameInput>): (t: seq<Motion>)
    requires Ready(s)
    ensures |t| == |ins| + 1 && t[0] == s
    ensures forall k :: 0 <= k < |t| ==> Ready(t[k])
    ensures Consistent(c, s) ==> forall k :: 0 <= k < |t| ==> Consistent(c, t[k])
    ensures forall k :: 0 <= k < |ins| ==> t[k + 1] == Frame(c, t[k], ins[k]).state
    decreases |ins|
  {
    if ins == [] then [s]
    else
      FrameKeepsReady(c, s, ins[0]);
      FramePreservesConsistent(c, s, ins[0]);
      var rest := Trace(c, Frame(c, s, ins[0]).state, ins[1..]);
      assert forall k :: 0 <= k < |ins| - 1 ==> ins[1..][k] == ins[k + 1];
      [s] + rest
  }

  /** Over any run, the gravity scale is never 0 in two consecutive states:
      the terminal-speed cut-off lasts one frame at a time. */
  lemma {:induction false} GravityNeverZeroTwiceInARow(c: Config, s: Motion, ins: seq<FrameInput>)
    requires Ready(s)
    ensures var t := Trace(c, s, ins);
            forall k :: 0 <= k < |ins| ==> !(t[k].gravityScale == 0.0 && t[k + 1].gravityScale == 0.0)
  {
    var t := Trace(c, s, ins);
    forall k | 0 <= k < |ins|
      ensures !(t[k].gravityScale == 0.0 && t[k + 1].gravityScale == 0.0)
    {
      FrameGravity(c, t[k], ins[k]);
    }
  }

  /** One frame's gravity step: below the terminal speed a non-zero scale is
      switched off, and a scale of 0 is never kept. */
  lemma FrameGravity(c: Config, s: Motion, i: FrameInput)
    requires Ready(s)
    ensures Frame(c, s, i).state.gravityScale == 0.0 ==> s.gravityScale != 0.0
    ensures i.velocity.y < FallingMaxVel && s.gravityScale != 0.0 ==> Frame(c, s, i).state.gravityScale == 0.0
  {
  }
}

=== FILE: game_store.dfy ===
/** The zustand game store: overlay flag, health, the current animation
    name and the table of animation names, with its guarded animation
    transitions. Each transition is a pure function from store to store. */
module GameStore {

  /** A JavaScript value of `curAnimation` or of an animation-table lookup:
      `null` (the initial animation), `undefined` (a key the table lacks) or
      a name. Strict equality distinguishes all three. */
  datatype AnimName = Null | Undefined | Name(text: string)

  /** The `animationSet` object: animation role to clip name. */
  type AnimationSet = map<string, string>

  /** `animationSet[key]`, which is `undefined` for an absent key. */
  function Lookup(table: AnimationSet, key: string): (r: AnimName)
    ensures r != Null
    ensures r.Name? <==> key in table
    ensures key in table ==> r.text == table[key]
    ensures key !in table ==> r == Undefined
  {
    if key in table then Name(table[key]) else Undefined
  }

  datatype Game = Game(overlayVisible: bool, curHealth: real, curAnimation: AnimName, animationSet: AnimationSet)
  {
    function Anim(key: string): AnimName {
      Lookup(animationSet, key)
    }

    /** The current animation is one of the four action animations. */
    predicate InAction() {
      curAnimation == Anim("action1") || curAnimation == Anim("action2")
      || curAnimation == Anim("action3") || curAnimation == Anim("action4")
    }
  }

  /** The store as created: overlay shown, health 10, no animation, empty table. */
  const Initial: Game := Game(true, 10.0, Null, map[])

  /** Only the current animation may differ between `g` and `r`. */
  predicate OnlyAnimationChanged(g: Game, r: Game) {
    r.overlayVisible == g.overlayVisible && r.curHealth == g.curHealth && r.animationSet == g.animationSet
  }

  function SetOverlayVisible(g: Game, visible: bool): (r: Game)
    ensures r.overlayVisible == visible
    ensures r.curHealth == g.curHealth && r.curAnimation == g.curAnimation && r.animationSet == g.animationSet
  {
    g.(overlayVisible := visible)
  }

  function SetCurHealth(g: Game, health: real): (r: Game)
    ensures r.curHealth == health
    ensures r.overlayVisible == g.overlayVisible && r.curAnimation == g.curAnimation && r.animationSet == g.animationSet
  {
    g.(curHealth := health)
  }

  function SetCurAnimation(g: Game, animation: AnimName): (r: Game)
    ensures r.curAnimation == animation && OnlyAnimationChanged(g, r)
  {
    g.(curAnimation := animation)
  }

  /** Both branches of `initializeAnimationSet` store the argument, so the
      table is replaced whether or not it was empty before. */
  function InitializeAnimationSet(g: Game, table: AnimationSet): (r: Game)
    ensures r.animationSet == table
    ensures r.overlayVisible == g.overlayVisible && r.curHealth == g.curHealth && r.curAnimation == g.curAnimation
  {
    if |g.animationSet.Keys| == 0 then g.(animationSet := table) else g.(animationSet := table)
  }

  function Reset(g: Game): (r: Game)
    ensures r.curAnimation == g.Anim("idle") && OnlyAnimationChanged(g, r)
  {
    g.(curAnimation := g.Anim("idle"))
  }

  /** `idle()`: from the jump-idle animation to the landing animation; from
      any other non-action animation to idle; an action animation is left
      playing. The jump-idle test comes first, so it wins even when the
      jump-idle name is also an action name. */
  function Idle(g: Game): (r: Game)
    ensures OnlyAnimationChanged(g, r)
    ensures g.curAnimation == g.Anim("jumpIdle") ==> r.curAnimation == g.Anim("jumpLand")
    ensures g.curAnimation != g.Anim("jumpIdle") && !g.InAction() ==> r.curAnimation == g.Anim("idle")
    ensures g.curAnimation != g.Anim("jumpIdle") && g.InAction() ==> r == g
  {
    if g.curAnimation == g.Anim("jumpIdle") then g.(curAnimation := g.Anim("jumpLand"))
    else if g.curAnimation != g.Anim("action1") && g.curAnimation != g.Anim("action2")
         && g.curAnimation != g.Anim("action3") && g.curAnimation != g.Anim("action4")
    then g.(curAnimation := g.Anim("idle"))
    else g
  }

  /** `walk()`: to the walk animation unless action 4 is playing. */
  function Walk(g: Game): (r: Game)
    ensures OnlyAnimationChanged(g, r)
    ensures g.curAnimation == g.Anim("action4") ==> r == g
    ensures g.curAnimation != g.Anim("action4") ==> r.curAnimation == g.Anim("walk")
  {
    if g.curAnimation != g.Anim("action4") then g.(curAnimation := g.Anim("walk")) else g
  }

  /** `run()`: to the run animation unless action 4 is playing. */
  function Run(g: Game): (r: Game)
    ensures OnlyAnimationChanged(g, r)
    ensures g.curAnimation == g.Anim("action4") ==> r == g
    ensures g.curAnimation != g.Anim("action4") ==> r.curAnimation == g.Anim("run")
  {
    if g.curAnimation != g.Anim("action4") then g.(curAnimation := g.Anim("run")) else g
  }

  /** `jump()`: unconditionally to the jump animation. */
  function Jump(g: Game): (r: Game)
    ensures r.curAnimation == g.Anim("jump") && OnlyAnimationChanged(g, r)
  {
    g.(curAnimation := g.Anim("jump"))
  }

  /** `jumpIdle()`: from the jump animation to jump-idle; a no-op otherwise. */
  function JumpIdle(g: Game): (r: Game)
    ensures OnlyAnimationChanged(g, r)
    ensures r != g ==> g.curAnimation == g.Anim("jump") && r.curAnimation == g.Anim("jumpIdle")
    ensures g.curAnimation == g.Anim("jump") ==> r.curAnimation == g.Anim("jumpIdle")
  {
    if g.curAnimation == g.Anim("jump") then g.(curAnimation := g.Anim("jumpIdle")) else g
  }

  /** `jumpLand()`: from jump-idle to the landing animation; a no-op otherwise. */
  function JumpLand(g: Game): (r: Game)
    ensures OnlyAnimationChanged(g, r)
    ensures r != g ==> g.curAnimation == g.Anim("jumpIdle") && r.curAnimation == g.Anim("jumpLand")
    ensures g.curAnimation == g.Anim("jumpIdle") ==> r.curAnimation == g.Anim("jumpLand")
  {
    if g.curAnimation == g.Anim("jumpIdle") then g.(curAnimation := g.Anim("jumpLand")) else g
  }

  /** `fall()`: unconditionally to the fall animation. */
  function Fall(g: Game): (r: Game)
    ensures r.curAnimation == g.Anim("fall") && OnlyAnimationChanged(g, r)
  {
    g.(curAnimation := g.Anim("fall"))
  }

  /** The full jump arc jump, jump-idle, land always ends on the landing
      animation, whatever names the table holds. */
  lemma JumpArcLands(g: Game)
    ensures JumpLand(JumpIdle(Jump(g))).curAnimation == g.Anim("jumpLand")
  {
  }

  /** Once action 4 is playing, walking and running keep it playing. */
  lemma ActionFourHoldsAgainstMovement(g: Game)
    requires g.curAnimation == g.Anim("action4")
    ensures Walk(g) == g && Run(g) == g && Walk(Run(g)) == g
  {
  }

  /** `idle()` called `n` times in a row. */
  function IdleTimes(g: Game, n: nat): (r: Game)
    ensures OnlyAnimationChanged(g, r)
  {
    if n == 0 then g else Idle(IdleTimes(g, n - 1))
  }

  /** Repeated `idle()` settles after at most two calls, provided the idle
      and jump-idle names differ. */
  lemma IdleSettles(g: Game)
    requires g.Anim("idle") != g.Anim("jumpIdle")
    ensures Idle(Idle(Idle(g))) == Idle(Idle(g))
  {
  }

  /** When the idle name equals the jump-idle name and the landing name is
      neither of them nor an action name, repeated `idle()` never settles:
      it alternates between the two names. */
  lemma IdleOscillatesWhenNamesCollide(g: Game)
    requires g.Anim("idle") == g.Anim("jumpIdle")
    requires g.curAnimation == g.Anim("idle")
    requires g.Anim("jumpLand") != g.Anim("idle")
    requires g.Anim("jumpLand") != g.Anim("action1") && g.Anim("jumpLand") != g.Anim("action2")
    requires g.Anim("jumpLand") != g.Anim("action3") && g.Anim("jumpLand") != g.Anim("action4")
    ensures Idle(g).curAnimation == g.Anim("jumpLand")
    ensures Idle(Idle(g)) == g
  {
  }

  /** The table the character model installs. It aliases jump-idle, fall,
      action 1 and action 2 to "JumpIdle", and landing and action 3 to
      "JumpLand". */
  const ShippedSet: AnimationSet := map[
    "idle" := "Idle", "walk" := "Walk", "run" := "Run", "jump" := "JumpStart",
    "jumpIdle" := "JumpIdle", "jumpLand" := "JumpLand", "fall" := "JumpIdle",
    "action1" := "JumpIdle", "action2" := "JumpIdle", "action3" := "JumpLand",
    "action4" := "RArmAttack", "action5" := "Fall", "action6" := "Death"
  ]

  /** With the shipped table, a character standing still after a jump lands
      and then stays on "JumpLand": the landing name is also the action-3
      name, so `idle()` treats it as an action and never reaches "Idle". */
  lemma {:induction false} ShippedLandingNeverIdles(g: Game, n: nat)
    requires g.animationSet == ShippedSet && g.curAnimation == Name("JumpIdle")
    requires n >= 1
    ensures IdleTimes(g, n).curAnimation == Name("JumpLand")
  {
    if n == 1 {
      assert IdleTimes(g, 0) == g;
    } else {
      ShippedLandingNeverIdles(g, n - 1);
      var h := IdleTimes(g, n - 1);
      assert h.animationSet == ShippedSet;
      assert h.curAnimation == h.Anim("action3");
    }
  }
}

=== FILE: vectors.dfy ===
/** Three-component real vectors: the part of three.js `Vector3` arithmetic
    the controller uses (add, scale, dot, cross and `projectOnVector`). */
module Vectors {

  datatype Vec3 = Vec3(x: real, y: real, z: real)

  const Zero: Vec3 := Vec3(0.0, 0.0, 0.0)

  function Add(a: Vec3, b: Vec3): Vec3 {
    Vec3(a.x + b.x, a.y + b.y, a.z + b.z)
  }

  function Sub(a: Vec3, b: Vec3): Vec3 {
    Vec3(a.x - b.x, a.y - b.y, a.z - b.z)
  }

  function Scale(a: Vec3, k: real): Vec3 {
    Vec3(a.x * k, a.y * k, a.z * k)
  }

  function Neg(a: Vec3): Vec3 {
    Vec3(-a.x, -a.y, -a.z)
  }

  function Dot(a: Vec3, b: Vec3): real {
    a.x * b.x + a.y * b.y + a.z * b.z
  }

  function LengthSq(a: Vec3): real {
    Dot(a, a)
  }

  function Cross(a: Vec3, b: Vec3): Vec3 {
    Vec3(a.y * b.z - a.z * b.y, a.z * b.x - a.x * b.z, a.x * b.y - a.y * b.x)
  }

  function Min(a: real, b: real): real {
    if a <= b then a else b
  }

  lemma LengthSqNonNegative(a: Vec3)
    ensures LengthSq(a) >= 0.0
    ensures LengthSq(a) >= a.y * a.y
  {
    assert a.x * a.x >= 0.0 && a.y * a.y >= 0.0 && a.z * a.z >= 0.0;
  }

  /** `v.projectOnVector(onto)`: the zero vector when `onto` has length zero,
      otherwise `onto` scaled by dot(onto, v) / |onto|^2. The remainder
      `v - r` is orthogonal to `onto`. */
  function ProjectOnVector(v: Vec3, onto: Vec3): (r: Vec3)
    ensures LengthSq(onto) == 0.0 ==> r == Zero
    ensures LengthSq(onto) != 0.0 ==> Dot(Sub(v, r), onto) == 0.0
    ensures Cross(r, onto) == Zero
  {
    var d := LengthSq(onto);
    if d == 0.0 then Zero
    else
      var k := Dot(onto, v) / d;
      ProjectionRemainderOrthogonal(v, onto, k);
      ScaledIsParallel(onto, k);
      Scale(onto, k)
  }

  /** A multiple of a vector is parallel to it. */
  lemma ScaledIsParallel(a: Vec3, k: real)
    ensures Cross(Scale(a, k), a) == Zero
  {
    assert (k * a.y) * a.z == (k * a.z) * a.y;
    assert (k * a.z) * a.x == (k * a.x) * a.z;
    assert (k * a.x) * a.y == (k * a.y) * a.x;
  }

  lemma ProjectionRemainderOrthogonal(v: Vec3, onto: Vec3, k: real)
    requires LengthSq(onto) != 0.0
    requires k == Dot(onto, v) / LengthSq(onto)
    ensures Dot(Sub(v, Scale(onto, k)), onto) == 0.0
  {
    var d := LengthSq(onto);
    calc {
      Dot(Sub(v, Scale(onto, k)), onto);
      Dot(v, onto) - k * d;
      { assert k * d == Dot(onto, v); }
      0.0;
    }
  }

  /** Projecting an upward vector (0, c, 0) with c >= 0 onto any vector yields
      a vertical part between 0 and c. */
  lemma {:induction false} VerticalProjectionBounds(c: real, n: Vec3)
    requires c >= 0.0
    ensures 0.0 <= ProjectOnVector(Vec3(0.0, c, 0.0), n).y <= c
  {
    var d := LengthSq(n);
    LengthSqNonNegative(n);
    if d != 0.0 {
      var k := Dot(n, Vec3(0.0, c, 0.0)) / d;
      assert Dot(n, Vec3(0.0, c, 0.0)) == n.y * c;
      var ry := n.y * k;
      assert ry * d == c * (n.y * n.y) by {
        assert k * d == n.y * c;
        calc {
          ry * d;
          n.y * (k * d);
          n.y * (n.y * c);
          c * (n.y * n.y);
        }
      }
      assert 0.0 <= c * (n.y * n.y) <= c * d by {
        assert n.y * n.y <= d;
        assert c * (n.y * n.y) <= c * d;
      }
      CancelPositiveFactor(ry, c, d);
    }
  }

  /** Dividing `0 <= x * d <= c * d` by a positive `d`. */
  lemma CancelPositiveFactor(x: real, c: real, d: real)
    requires d > 0.0 && 0.0 <= x * d <= c * d
    ensures 0.0 <= x <= c
  {
  }

  /** A vertical vector projected onto a vertical axis is itself. */
  lemma VerticalOntoVertical(c: real, n: Vec3)
    ensures n.x == 0.0 && n.z == 0.0 && n.y != 0.0 ==> ProjectOnVector(Vec3(0.0, c, 0.0), n) == Vec3(0.0, c, 0.0)
  {
    if n.x == 0.0 && n.z == 0.0 && n.y != 0.0 {
      assert LengthSq(n) == n.y * n.y;
      assert Dot(n, Vec3(0.0, c, 0.0)) == n.y * c;
      assert (n.y * c) / (n.y * n.y) * n.y == c;
    }
  }
}

=== FILE: wrappers.dfy ===
/** Optional values: the model's stand-in for JavaScript's `null` results
    (a ray that missed, a collider without a parent body, no direction key). */
module Wrappers {

  datatype Option<+T> = None | Some(value: T) {

    /** The encapsulated value, or `default` when there is none. */
    function GetOr(default: T): (r: T)
      ensures Some? ==> r == value
      ensures None? ==> r == default
    {
      match this
      case Some(v) => v
      case None => default
    }
  }
}
